=== FILE: README.md ===
# Chat message rendering, conversation paging and the message log, in Dafny

This project models the logic of a web chat application:

- **Message rendering.** A chat message's text is cut into fenced code blocks and prose. Fenced code is split into an optional language word and the code. Prose is parsed line by line into headings, numbered lists, bullet lists, paragraphs and spacers, and each piece of text then goes through the inline formatter (code, bold, italic).
- **Sidebar conversation list.** All conversations are fetched once and shown twenty at a time. One more page appears when the list is scrolled to its end.
- **Thread grouping.** The server groups conversation rows into one summary per thread and keeps the first ten. It also wraps query results in success/failure envelopes.
- **Chat page message log.** Sending appends the user's message and then either the assistant's reply or an error.

The modules are:

| module | file | models |
|---|---|---|
| `JsText` | js_text.dfy | the JavaScript string operations the code relies on: `trim`, `slice`, `substring`, `split`/`join` on one character, decimal printing |
| `RegexSplit` | regex_split.dfy | `String.prototype.split` with the two capturing regexes of the renderer. Each regex is a sticky matcher, proved to match exactly the tokens the regex describes. The split follows the ECMAScript `@@split` steps: leftmost match, text and match alternating |
| `FormattedText` | formatted_text.dfy | the top level of `FormattedText`: fence split, code-block extraction, blank parts skipped |
| `MarkdownBlocks` | markdown_blocks.dfy | `formatMarkdown`: the imperative line loop (`FormatMarkdown`, `NextBlock`, `CollectItems`) proved equal to a recursive parse (`Blocks`) |
| `InlineFormat` | inline_format.dfy | `formatInlineElements` |
| `ChatSidebar` | chat_sidebar.dfy | the sidebar's paging state as a class, the scroll test, the label and the end-of-list notice |
| `Storage` | storage.dfy | `getConversationsByEmail` as a loop over a map and a key-order list, proved equal to a recursive grouping; the envelopes of `getAllConversations` and `getAllConversationsByUser` |
| `ChatPage` | chat_page.dfy | the chat page's state (`messages`, `error`, `isLoading`, `sidebarOpen`) as a class |

### Where the model follows the code rather than the intended behaviour

- **A lone word is a language.** A fenced block whose content is one word of letters has that word as its language and empty code: `` ```\nhello\n``` `` gives language `hello` and code `""` (`FormattedText.LoneWordIsLanguage`). A reader might expect "no language, code `hello`" instead.
- **Deep headings.** A line starting with four or more `#` is a level-3 heading that keeps the extra `#` in its text: `#### a` has text `# a` (`MarkdownBlocks.DeepHeadingExample`).
- **Unclosed fences.** An uncaptured part made of three to five backticks at the very end of a message starts and ends with three backticks. It is therefore shown as an empty code block (`FormattedText.CodeBlockParts`).
- **Page length.** The shown list holds the first `(page + 1) * 20` conversations, not `page * 20` (`ChatSidebar.PagedPrefix`). A failed reload leaves the page number unchanged. A successful one resets it to 0, so the page number does not only increase.
- **The envelopes do not group.** They return the rows as fetched. Only `getConversationsByEmail` groups by thread and caps at ten.
- **Null messages.** A row whose message is null makes `getConversationsByEmail` return `[]`, because reading its length throws and the error is caught. This happens only when the row is the first of its thread; later rows of a thread are never read.
- **Empty plain parts.** The inline split yields empty plain parts before a leading span, after a trailing span, and between adjacent spans. JavaScript renders them as nothing; the model keeps them as `Plain("")`.

## Model

| member | source | states |
|---|---|---|
| JsText.TrimSpec | client/src/components/chat-messages.tsx:98 | `trim` keeps a contiguous middle of the string and removes only whitespace before and after it; it gives the empty string exactly for all-whitespace strings, and otherwise leaves no whitespace at either end, so the middle kept is the largest one |
| JsText.TrimFixedPoint | client/src/components/chat-messages.tsx:98 | trimming a trimmed line changes nothing |
| JsText.TrimStartSpec | client/src/components/chat-messages.tsx:104 | the `\s*` removal after a marker drops exactly the leading whitespace: the result is a suffix of the input, all that was removed is whitespace, and the result does not start with whitespace |
| JsText.SliceBothEnds | client/src/components/chat-messages.tsx:43 | `slice(k, -k)` on a string of length at least `2k` is the string without its first and last `k` characters |
| JsText.SubstringPrefix | client/src/components/chat-sidebar.tsx:162 | `substring(0, n)` is the first `min(n, length)` characters |
| JsText.SplitOnPieces | client/src/components/chat-messages.tsx:44 | no piece of `split('\n')` holds a line break, and there is more than one piece exactly when the text holds one |
| JsText.JoinSplit | client/src/components/chat-messages.tsx:44-46 | `split(sep).join(sep)` gives the string back |
| JsText.SplitJoin | client/src/components/chat-messages.tsx:44-46 | splitting a join of separator-free pieces gives the pieces back |
| JsText.SplitHead | client/src/components/chat-messages.tsx:44-46 | a text holding a line break is its first line, the break, and the join of the other lines |
| JsText.NatToStringRoundTrip | server/storage.ts:126 | the decimal text of the row count in the envelope message reads back as the count |
| RegexSplit.FenceMatchIsToken | client/src/components/chat-messages.tsx:36 | the fence matcher matches at the front of a string exactly when some prefix is three backticks, anything, three backticks with no earlier closing; the match is that prefix (the lazy `[\s\S]*?`) |
| RegexSplit.WrappedMatchIsToken | client/src/components/chat-messages.tsx:187 | the inline-code and italic alternatives (`d[^d]+d` with a backtick or an asterisk) match exactly the delimiter, one or more other characters and the delimiter, and no other prefix |
| RegexSplit.BoldMatchIsToken | client/src/components/chat-messages.tsx:187 | the bold alternative matches exactly `**`, one or more non-asterisks and `**` |
| RegexSplit.MatchAtIsToken | client/src/components/chat-messages.tsx:187 | the alternation matches at the front of a string exactly when some prefix is a code, bold or italic token, and the match is that prefix |
| RegexSplit.FindMatchLeftmost | client/src/components/chat-messages.tsx:36 | the match the split uses is the leftmost one; when none is found, no position matches |
| RegexSplit.Split | client/src/components/chat-messages.tsx:36 | a capturing split has an odd number of parts: text, match, text, ..., text |
| RegexSplit.SplitStep | client/src/components/chat-messages.tsx:36 | one split step emits the text before the leftmost match, the match, then splits the rest |
| RegexSplit.SplitConcat | client/src/components/chat-messages.tsx:36 | the parts of a split concatenate back to the input |
| RegexSplit.SplitByConcat | client/src/components/chat-messages.tsx:187 | the same for the split by either regex |
| RegexSplit.SplitByTokens | client/src/components/chat-messages.tsx:36 | every odd-indexed (captured) part is one whole token of the regex |
| RegexSplit.SplitByGapsTokenFree | client/src/components/chat-messages.tsx:36 | no even-indexed (text) part holds a token of the regex anywhere inside it |
| RegexSplit.SplitGapContext | client/src/components/chat-messages.tsx:36 | a text part starts the text that remains after the matches before it; no match starts at its front; the next match follows it directly, or it is the last part and all that remains |
| RegexSplit.NoMatchNoSplit | client/src/components/chat-messages.tsx:36 | a string in which the regex matches nowhere is split into itself alone |
| FormattedText.FormatContent | client/src/components/chat-messages.tsx:36-84 | one rendered entry per part of the fence split, in order |
| FormattedText.FenceTokenIsFencePart | client/src/components/chat-messages.tsx:41 | every captured fence passes the starts-and-ends-with-three-backticks test |
| FormattedText.TextPartAsCode | client/src/components/chat-messages.tsx:41 | an uncaptured part passes that test exactly when it is the last part and consists of three to five backticks |
| FormattedText.CodeBlockParts | client/src/components/chat-messages.tsx:41-83 | a part is shown as a code block exactly when it is a captured fence, or that trailing run of backticks |
| FormattedText.CodeBlockReassembles | client/src/components/chat-messages.tsx:43-46 | the code block `CodeBlockOf` builds has a language exactly when the first line of the trimmed content is a word of letters, and then the language is that line. Without a language the code (what the copy button at line 66 copies) is the whole trimmed content. With one, the content is that word alone (code empty) or the word, a line break and the code |
| FormattedText.LoneWordIsLanguage | client/src/components/chat-messages.tsx:45-46 | `` ```\nhello\n``` `` gives language `hello` and empty code |
| FormattedText.LanguageAndCode | client/src/components/chat-messages.tsx:43-46 | `` ```py\nx\n``` `` gives language `py` and code `x` |
| FormattedText.RenderShape | client/src/components/chat-messages.tsx:41-82 | `Render` of one part: a part that starts and ends with three backticks is the code block `CodeBlockOf` builds; any other part is shown as untrimmed prose unless it is all whitespace, and then it is `null` |
| FormattedText.BlankContentShowsNothing | client/src/components/chat-messages.tsx:80-82 | an empty or all-whitespace message is one part, shown as nothing |
| FormattedText.FormatContentShape | client/src/components/chat-messages.tsx:36-84 | entry k of the rendered list is a code block (the one `CodeBlockOf` builds) exactly for a captured fence or the trailing run of three to five backticks, nothing exactly when part k is all whitespace, and otherwise part k itself as untrimmed prose |
| FormattedText.NoFenceIsProse | client/src/components/chat-messages.tsx:36-82 | a message with no backtick and not all whitespace is one part, shown as prose |
| FormattedText.OneLineOneParagraph | client/src/components/chat-messages.tsx:96-172 | a line with no line break whose trimmed text opens no heading or list is parsed as one paragraph of that trimmed text |
| FormattedText.NoDelimiterIsPlain | client/src/components/chat-messages.tsx:187-216 | text with no backtick and no asterisk is one plain span |
| FormattedText.PlainLineIsParagraph | client/src/components/chat-messages.tsx:36-219 | a one-line message with no backtick, no asterisk and no leading heading or list marker is shown end to end as one paragraph holding the trimmed message as one plain span |
| MarkdownBlocks.DigitRun | client/src/components/chat-messages.tsx:121 | the `\d+` run at the front of a line: all digits, followed by a non-digit or the end |
| MarkdownBlocks.KindShape | client/src/components/chat-messages.tsx:101-177 | `Kind`, the priority order of the if-chain: a line starting with `#` is a heading, of level 3 for `###` or more, 2 for exactly `##` and 1 for a single `#`; a list item is a non-heading line that passes a list test, numbered tested first, and its kind is one whose test it passes; only the empty line is blank |
| MarkdownBlocks.TrimAll | client/src/components/chat-messages.tsx:98 | one trimmed line per line |
| MarkdownBlocks.TrimAllAt | client/src/components/chat-messages.tsx:125 | the trimmed line `k` is `lines[k].trim()` |
| MarkdownBlocks.Run | client/src/components/chat-messages.tsx:125-133 | a list run is maximal: every line in it passes the list test and the line after it, if any, does not |
| MarkdownBlocks.Items | client/src/components/chat-messages.tsx:126-129 | one list entry per line of the run |
| MarkdownBlocks.FirstBlock | client/src/components/chat-messages.tsx:98-177 | the block a line opens takes at least one line and no more than there are |
| MarkdownBlocks.RunEndsAt | client/src/components/chat-messages.tsx:125-133 | the inner loop's stopping point is the end of the maximal run |
| MarkdownBlocks.CollectItems | client/src/components/chat-messages.tsx:122-133 | the inner `while (j …)` loop ends at the end of the run from `i` and collects the marker-stripped text of exactly those lines (the bullet loop at 145-156 is the same with the bullet test) |
| MarkdownBlocks.NextBlock | client/src/components/chat-messages.tsx:98-179 | one turn of the outer loop, with the rewind `i = j - 1` and the `i++`, yields the block the recursive parse starts with and moves past exactly the lines it used |
| MarkdownBlocks.FormatMarkdown | client/src/components/chat-messages.tsx:91-182 | the outer loop terminates and its elements are exactly `Blocks`, the recursive parse of the trimmed lines |
| MarkdownBlocks.FirstBlockHeight | client/src/components/chat-messages.tsx:98-179 | a block reports as many lines as it was made from |
| MarkdownBlocks.BlocksCoverLines | client/src/components/chat-messages.tsx:96-180 | every line is visited once: the blocks of `Blocks` together were made from exactly all the lines |
| MarkdownBlocks.FirstBlockList | client/src/components/chat-messages.tsx:121-144 | a list is opened only by a line that passes its list test |
| MarkdownBlocks.ListsMaximal | client/src/components/chat-messages.tsx:121-165 | a list block is never followed directly by a list of the same kind |
| MarkdownBlocks.DeepHeadingExample | client/src/components/chat-messages.tsx:101-104 | `#### a` is a level-3 heading with text `# a` |
| MarkdownBlocks.NumberedItemExample | client/src/components/chat-messages.tsx:121-129 | `12. a` is a numbered item with text `a` |
| MarkdownBlocks.NumberWithoutSpaceExample | client/src/components/chat-messages.tsx:121 | `1.a` is a paragraph line |
| MarkdownBlocks.BulletExample | client/src/components/chat-messages.tsx:144-152 | `-a` is a paragraph line; `* a` is a bullet item with text `a` |
| InlineFormat.ClassifyPart | client/src/components/chat-messages.tsx:189-215 | the span a part is shown as, with its delimiters put back, is exactly the part |
| InlineFormat.CodeRoundTrip | client/src/components/chat-messages.tsx:191-192 | inline code is the part without its first and last character |
| InlineFormat.BoldRoundTrip | client/src/components/chat-messages.tsx:203-204 | bold text is the part without two characters at each end |
| InlineFormat.ItalicRoundTrip | client/src/components/chat-messages.tsx:208-209 | italic text is the part without its first and last character |
| InlineFormat.FormatInlineParts | client/src/components/chat-messages.tsx:187-216 | `FormatInline` gives one span per part of the inline split, each standing for its part |
| InlineFormat.SourceOfConcat | client/src/components/chat-messages.tsx:189-216 | spans that stand for their parts stand, together, for the concatenation of the parts |
| InlineFormat.FormatInlineLossless | client/src/components/chat-messages.tsx:187-216 | the spans, delimiters included, reproduce the text exactly and in order |
| InlineFormat.TokenSpan | client/src/components/chat-messages.tsx:187-211 | a captured token is shown as a span of its own kind with its delimiters removed, never as plain text |
| InlineFormat.CapturedSpans | client/src/components/chat-messages.tsx:187-211 | every captured part is shown as code, bold or italic, and its inner text holds no delimiter of its kind (the inner text is never scanned again) |
| InlineFormat.GapNotItalic | client/src/components/chat-messages.tsx:208 | text at whose front no inline match starts is never classified italic |
| InlineFormat.PlainPartsNotItalic | client/src/components/chat-messages.tsx:187-211 | no uncaptured part is shown as italic |
| ChatSidebar.FirstPageIsPaged | client/src/components/chat-sidebar.tsx:39-41 | the first page is the first `min(20, n)` conversations and satisfies the paging invariant with page 0 |
| ChatSidebar.NextChunkExtends | client/src/components/chat-sidebar.tsx:60-67 | a non-empty next chunk is exactly the conversations after the shown ones, at most twenty, and appending it keeps the invariant with the page advanced |
| ChatSidebar.MoreLeftMeansProgress | client/src/components/chat-sidebar.tsx:60-65 | while some conversations are not shown, the next chunk is not empty |
| ChatSidebar.AllShownMeansNoChunk | client/src/components/chat-sidebar.tsx:60-69 | once all are shown the next chunk is empty, so a completed load changes nothing |
| ChatSidebar.AllLoadedMeansEverythingShown | client/src/components/chat-sidebar.tsx:177 | the end-of-list notice shows exactly when there are conversations and all of them are shown |
| ChatSidebar.LabelShape | client/src/components/chat-sidebar.tsx:162-163 | the label is the title when it has 1 to 50 characters, its first 50 and `...` (53 characters) when longer, and `Conversa <id>` when it is missing or empty |
| ChatSidebar.Sidebar.constructor | client/src/components/chat-sidebar.tsx:17-21 | the initial state: empty lists, page 0, nothing loading |
| ChatSidebar.Sidebar.LoadConversations | client/src/components/chat-sidebar.tsx:24-52 | after a fetch: all conversations are the fetched data (or none), the first page is shown, the page is 0; after a failure both lists are empty and the page is kept; loading is off; the paging invariant holds |
| ChatSidebar.Sidebar.BeginLoadMore | client/src/components/chat-sidebar.tsx:54-57 | a load is started exactly when none is in progress; the lists are untouched |
| ChatSidebar.Sidebar.CompleteLoadMore | client/src/components/chat-sidebar.tsx:59-72 | the next chunk is appended and the page advanced when the chunk is not empty, otherwise nothing changes; the loading mark is cleared; the paging invariant is kept |
| ChatSidebar.Sidebar.OnScroll | client/src/components/chat-sidebar.tsx:131-139 | a load starts exactly when the list is within 20 pixels of its end, some conversations are hidden and no load is in progress |
| ChatSidebar.Sidebar.ScrollLoadProgresses | client/src/components/chat-sidebar.tsx:132-137 | a load the scroll handler asks for always starts and always shows more |
| Storage.ThreadKeyShape | server/storage.ts:68 | `ThreadKey`: a row with a non-empty thread id is in that thread; any other row is `single_<id>`, and two such rows share a thread exactly when their ids are equal |
| Storage.TitlePreviewShape | server/storage.ts:72-74 | the title is the message when it has at most 50 characters, else its first 50 and `...`; never longer than 53 |
| Storage.GroupFromSnoc | server/storage.ts:67-80 | a further row of a seen thread changes nothing; a row of a new thread appends that thread's summary (or fails on a null message) |
| Storage.GroupFromDistinct | server/storage.ts:66-82 | no two summaries have the same id |
| Storage.GroupFromCoversThreads | server/storage.ts:66-82 | the summaries' ids are exactly the threads of the rows |
| Storage.GroupFromFirstRows | server/storage.ts:69-79 | each summary is made from the first row of its thread: its id, its title, its untruncated last message, its date and its student |
| Storage.ConversationsByEmailShape | server/storage.ts:46-87 | at most ten summaries with distinct ids. A non-empty result comes only from a configured client and a successful query, and it is the first ten summaries of the grouping |
| Storage.GetConversationsByEmail | server/storage.ts:46-87 | the loop over the map and its insertion order, with the final `slice(0, 10)`, gives exactly the specified result, `[]` on every failure path |
| Storage.EnvelopeFailures | server/storage.ts:99-137 | an envelope reports success exactly for a configured client and a successful query; every failure has no rows; a query error or exception carries its message |
| Storage.EnvelopeCount | server/storage.ts:124-129 | on success the message is the decimal row count followed by ` conversas encontradas`, and the rows are the data (none when null) |
| ChatPage.ReplyContentShape | client/src/pages/chat.tsx:76 | an assistant message is the reply text when that is not empty, else `Mensagem recebida com sucesso!`; never empty |
| ChatPage.AfterSendShape | client/src/pages/chat.tsx:46-85 | a send keeps the earlier messages. It appends the user's message and then one assistant message exactly when the webhook replied, and it adds exactly one user message |
| ChatPage.ChatSession.constructor | client/src/pages/chat.tsx:21-33 | the initial state: no messages, no error, not loading, sidebar closed |
| ChatPage.ChatSession.AddMessage | client/src/pages/chat.tsx:36-44 | exactly one message with the given content and author is appended, and returned; nothing else changes |
| ChatPage.ChatSession.BeginSend | client/src/pages/chat.tsx:47-52 | the error is cleared, the user's message appended and loading turned on |
| ChatPage.ChatSession.CompleteSend | client/src/pages/chat.tsx:68-84 | the reply's message is appended, or on a failure the error text is set; loading is off either way |
| ChatPage.ChatSession.HandleSendMessage | client/src/pages/chat.tsx:46-85 | the log becomes the earlier messages, the user's message and the reply's; the error is set exactly on failure; loading ends off |
| ChatPage.ChatSession.HandleNewChat | client/src/pages/chat.tsx:87-91 | messages and error are cleared and the sidebar closed |

## Left out

- JSX markup, class names, React keys and the `useEffect` that scrolls the message list are not modelled. The clipboard write and its two-second "copied" mark (client/src/components/chat-messages.tsx:25-33) are left out too: the model only shows that the copy button's payload is `CodeBlock.code`.
- The network is not modelled. The fetch of `/api/conversations-all`, the webhook `fetch` and the Supabase queries become inputs (`FetchOutcome`, `Reply`, `QueryOutcome`). Whether the client is configured becomes the flag `configured`.
- Message ids (`Date.now()` and `Math.random()`) are inputs, not generated. The session id (client/src/pages/chat.tsx:34) is never read by the page and is not modelled.
- The email argument of `getConversationsByEmail` is unused by the source: the query always asks for student 5. The rows are taken as given.
- The 500 ms delay of `loadMoreConversations` and React's asynchronous state updates (stale closures, batched `setState`) are not modelled. A page load is two sequential steps, `BeginLoadMore` and `CompleteLoadMore`.
- Concurrent sends are not modelled as such. `BeginSend` and `CompleteSend` can be called in any order by a caller; `HandleSendMessage` states the effect of one send with no other send between its two halves.
- Scroll positions are integers. The browser's fractional pixel values are not modelled.
- Strings are sequences of characters. UTF-16 code units and surrogate pairs are not modelled, so lengths and `substring(0, 50)` count characters. `JsText.IsSpace` is the whitespace set of `trim` and `\s` in ECMAScript: white space and line terminators.
- Trimming: the recursive parse `Blocks` works on lines trimmed up front. The loop trims each line when it reads it, as the source does, and `FormatMarkdown` is proved equal to the parse of the trimmed lines.
- The inline formatter's spans inside a block are kept as the block's text. `MarkdownBlocks.InlineContent` maps them through `FormatInline` rather than storing the spans in the block.
- `console.log` and `console.error` calls are not modelled.
- server/routes.ts, shared/schema.ts and the bundled index.js are not part of this model: they are request handlers, table declarations and a build copy of the files above. Neither are the storage functions that only call the database (`getUser`, `createConversation` and the other drizzle calls).

=== FILE: chat_page.dfy ===
/** The message log of the chat page (client/src/pages/chat.tsx): sending appends the user's
    message, asks the webhook, and appends the assistant's reply or records an error. The webhook
    call is not modelled: its outcome is an input. Message ids come from the clock and a random
    number in the source; here they are inputs too. */
module ChatPage {
  datatype Message = Message(id: string, content: string, isUser: bool)

  /** What the webhook gave: a reply body (possibly empty), or a failure (a non-ok status or a
      thrown error). */
  datatype Reply = Replied(text: string) | Failed

  const DefaultReply: string := "Mensagem recebida com sucesso!"
  const SendError: string := "Erro ao enviar mensagem. Tente novamente."

  /** `resultText || "Mensagem recebida com sucesso!"` */
  function ReplyContent(text: string): string {
    if text == "" then DefaultReply else text
  }

  /** An assistant message is never empty, and it is the reply text whenever that is not empty. */
  lemma ReplyContentShape(text: string)
    ensures ReplyContent(text) != ""
    ensures text != "" ==> ReplyContent(text) == text
    ensures text == "" ==> ReplyContent(text) == DefaultReply
  {
  }

  /** The messages a completed reply adds: one assistant message, or none on a failure. */
  function ReplyMessages(reply: Reply, replyId: string): seq<Message> {
    match reply
    case Replied(text) => [Message(replyId, ReplyContent(text), false)]
    case Failed => []
  }

  /** The error text a completed reply leaves. */
  function ErrorAfter(reply: Reply): string {
    if reply.Failed? then SendError else ""
  }

  /** The number of messages written by the user. */
  function UserCount(messages: seq<Message>): nat
    decreases |messages|
  {
    if messages == [] then 0
    else (if messages[0].isUser then 1 else 0) + UserCount(messages[1..])
  }

  lemma {:induction false} UserCountAppend(a: seq<Message>, b: seq<Message>)
    ensures UserCount(a + b) == UserCount(a) + UserCount(b)
    decreases |a|
  {
    if a == [] {
      assert a + b == b;
    } else {
      assert (a + b)[1..] == a[1..] + b;
      UserCountAppend(a[1..], b);
    }
  }

  /** The log after a send: the earlier messages unchanged, then the user's message, then the
      reply's messages. */
  function AfterSend(before: seq<Message>, message: string, userId: string, reply: Reply, replyId: string): seq<Message> {
    before + [Message(userId, message, true)] + ReplyMessages(reply, replyId)
  }

  /** A send adds exactly one user message, with the text sent, and exactly one assistant message
      when the webhook replied and none when it failed; nothing before it changes. */
  lemma AfterSendShape(before: seq<Message>, message: string, userId: string, reply: Reply, replyId: string)
    ensures var after := AfterSend(before, message, userId, reply, replyId);
      && after[..|before|] == before
      && after[|before|] == Message(userId, message, true)
      && |after| == |before| + (if reply.Replied? then 2 else 1)
      && (reply.Replied? ==> after[|before| + 1] == Message(replyId, ReplyContent(reply.text), false))
      && UserCount(after) == UserCount(before) + 1
  {
    var after := AfterSend(before, message, userId, reply, replyId);
    var user := [Message(userId, message, true)];
    UserCountAppend(before, user);
    UserCountAppend(before + user, ReplyMessages(reply, replyId));
    assert UserCount(user) == 1 by {
      assert user[1..] == [];
    }
    assert UserCount(ReplyMessages(reply, replyId)) == 0 by {
      if reply.Replied? {
        assert ReplyMessages(reply, replyId)[1..] == [];
      }
    }
  }

  /** The state cells of the chat page. */
  class ChatSession {
    var messages: seq<Message>
    var error: string
    var isLoading: bool
    var sidebarOpen: bool

    constructor()
      ensures messages == [] && error == "" && !isLoading && !sidebarOpen
    {
      messages, error, isLoading, sidebarOpen := [], "", false, false;
    }

    /** `addMessage`: appends one message with the given content and author and returns it. */
    method AddMessage(content: string, isUser: bool, id: string) returns (m: Message)
      modifies this
      ensures m == Message(id, content, isUser)
      ensures messages == old(messages) + [m]
      ensures error == old(error) && isLoading == old(isLoading) && sidebarOpen == old(sidebarOpen)
    {
      m := Message(id, content, isUser);
      messages := messages + [m];
    }

    /** The part of `handleSendMessage` before the webhook is awaited: the error is cleared, the
        user's message is appended and loading is on. */
    method BeginSend(message: string, userId: string)
      modifies this
      ensures error == "" && isLoading
      ensures messages == old(messages) + [Message(userId, message, true)]
      ensures sidebarOpen == old(sidebarOpen)
    {
      error := "";
      var _ := AddMessage(message, true, userId);
      isLoading := true;
    }

    /** The part of `handleSendMessage` after the webhook answered: the reply is appended, or the
        error is set on a failure; loading is off either way. */
    method CompleteSend(reply: Reply, replyId: string)
      modifies this
      ensures messages == old(messages) + ReplyMessages(reply, replyId)
      ensures reply.Failed? ==> error == SendError
      ensures reply.Replied? ==> error == old(error)
      ensures !isLoading && sidebarOpen == old(sidebarOpen)
    {
      match reply {
        case Replied(text) =>
          var assistantMessage := ReplyContent(text);
          var _ := AddMessage(assistantMessage, false, replyId);
        case Failed =>
          error := SendError;
      }
      isLoading := false;
    }

    /** `handleSendMessage` when no other send interleaves: the log becomes `AfterSend`, the error
        is set exactly when the webhook failed, and loading is off. */
    method HandleSendMessage(message: string, userId: string, reply: Reply, replyId: string)
      modifies this
      ensures messages == AfterSend(old(messages), message, userId, reply, replyId)
      ensures error == ErrorAfter(reply)
      ensures !isLoading && sidebarOpen == old(sidebarOpen)
    {
      BeginSend(message, userId);
      CompleteSend(reply, replyId);
    }

    /** `handleNewChat`: the log and the error are cleared and the sidebar is closed. */
    method HandleNewChat()
      modifies this
      ensures messages == [] && error == "" && !sidebarOpen
      ensures isLoading == old(isLoading)
    {
      messages := [];
      error := "";
      sidebarOpen := false;
    }
  }
}

=== FILE: chat_sidebar.dfy ===
/** The conversation list of the sidebar (client/src/components/chat-sidebar.tsx): all
    conversations are fetched at once and shown twenty at a time, one more page whenever the list
    is scrolled to its end. The 500 ms delay between asking for a page and showing it is modelled
    as two steps, `BeginLoadMore` and `CompleteLoadMore`. */
module ChatSidebar {
  import opened JsText

  /** `conversationsPerPage` */
  const PageSize: nat := 20

  /** A conversation as the list shows it: its numeric id and its title, which may be absent. */
  datatype Listed = Listed(id: nat, title: Option<string>)

  /** What the fetch of `/api/conversations-all` gave: a body whose `data` may be absent, or a
      failure (network error, non-ok status or unreadable body). */
  datatype FetchOutcome = Fetched(data: Option<seq<Listed>>) | FetchFailed

  /** The shown list is the first `page + 1` pages of all conversations. */
  predicate PagedPrefix(all: seq<Listed>, displayed: seq<Listed>, page: nat) {
    displayed == all[..Min((page + 1) * PageSize, |all|)]
  }

  /** The conversations of the page after `page`: `all.slice(start, start + 20)`. */
  function NextChunk(all: seq<Listed>, page: nat): seq<Listed> {
    var start := (page + 1) * PageSize;
    Slice(all, start, start + PageSize)
  }

  /** The first page of a fresh list satisfies the invariant with page 0. */
  lemma FirstPageIsPaged(all: seq<Listed>)
    ensures PagedPrefix(all, Slice(all, 0, PageSize), 0)
    ensures |Slice(all, 0, PageSize)| == Min(PageSize, |all|)
  {
  }

  /** Appending the next chunk moves the invariant on by one page, and the chunk is exactly the
      conversations that follow the shown ones, at most twenty of them. */
  lemma NextChunkExtends(all: seq<Listed>, displayed: seq<Listed>, page: nat)
    requires PagedPrefix(all, displayed, page)
    requires NextChunk(all, page) != []
    ensures NextChunk(all, page) == all[|displayed|..Min(|displayed| + PageSize, |all|)]
    ensures PagedPrefix(all, displayed + NextChunk(all, page), page + 1)
  {
    var start := (page + 1) * PageSize;
    assert start < |all|;
    assert |displayed| == start;
    assert all[..Min((page + 2) * PageSize, |all|)] == all[..start] + all[start..Min(start + PageSize, |all|)];
  }

  /** While some conversations are not shown, the next chunk is not empty: a scroll-triggered
      load always shows more. */
  lemma MoreLeftMeansProgress(all: seq<Listed>, displayed: seq<Listed>, page: nat)
    requires PagedPrefix(all, displayed, page)
    requires |displayed| < |all|
    ensures NextChunk(all, page) != []
  {
    var start := (page + 1) * PageSize;
    assert Min(start, |all|) < |all|;
  }

  /** Once everything is shown the next chunk is empty, so completing a load changes nothing. */
  lemma AllShownMeansNoChunk(all: seq<Listed>, displayed: seq<Listed>, page: nat)
    requires PagedPrefix(all, displayed, page)
    requires |displayed| >= |all|
    ensures NextChunk(all, page) == []
  {
  }

  /** The end-of-list notice: shown exactly when every conversation is shown and there is at
      least one. */
  predicate AllLoaded(displayedCount: nat, allCount: nat) {
    displayedCount >= allCount && allCount > 0
  }

  lemma AllLoadedMeansEverythingShown(all: seq<Listed>, displayed: seq<Listed>, page: nat)
    requires PagedPrefix(all, displayed, page)
    ensures AllLoaded(|displayed|, |all|) <==> (all != [] && displayed == all)
  {
    if displayed == all {
      assert |displayed| == |all|;
    }
    if |displayed| >= |all| {
      assert all[..|all|] == all;
    }
  }

  /** How a conversation is labelled: its title cut to fifty characters, with `...` when the
      title is longer, or `Conversa <id>` when there is no title or it is empty. */
  function Label(c: Listed): string {
    var head :=
      if c.title.Some? && Substring(c.title.value, 0, 50) != "" then Substring(c.title.value, 0, 50)
      else "Conversa " + NatToString(c.id);
    var tail := if c.title.Some? && |c.title.value| > 50 then "..." else "";
    head + tail
  }

  lemma LabelShape(c: Listed)
    ensures c.title.Some? && 0 < |c.title.value| <= 50 ==> Label(c) == c.title.value
    ensures c.title.Some? && |c.title.value| > 50 ==>
      Label(c) == c.title.value[..50] + "..." && |Label(c)| == 53
    ensures c.title.None? || c.title.value == [] ==> Label(c) == "Conversa " + NatToString(c.id)
  {
    if c.title.Some? {
      SubstringPrefix(c.title.value, 50);
    }
  }

  /** The state cells of the sidebar's list. */
  class Sidebar {
    var all: seq<Listed>
    var displayed: seq<Listed>
    var currentPage: nat
    var isLoading: bool
    var isLoadingMore: bool

    predicate Valid()
      reads this
    {
      PagedPrefix(all, displayed, currentPage)
    }

    constructor()
      ensures Valid()
      ensures all == [] && displayed == [] && currentPage == 0
      ensures !isLoading && !isLoadingMore
    {
      all, displayed, currentPage := [], [], 0;
      isLoading, isLoadingMore := false, false;
    }

    /** `loadConversations`: on success all conversations are replaced by the fetched data (none
        when the body has no data) and the first page is shown; on failure both lists are
        emptied and the page is left as it was. Loading is off afterwards. */
    method LoadConversations(outcome: FetchOutcome)
      modifies this
      ensures Valid()
      ensures outcome.Fetched? ==>
        && all == outcome.data.GetOr([])
        && displayed == all[..Min(PageSize, |all|)]
        && currentPage == 0
      ensures outcome.FetchFailed? ==>
        all == [] && displayed == [] && currentPage == old(currentPage)
      ensures !isLoading && isLoadingMore == old(isLoadingMore)
    {
      isLoading := true;
      match outcome {
        case Fetched(data) =>
          var conversationsData := data.GetOr([]);
          all := conversationsData;
          var firstPage := Slice(conversationsData, 0, PageSize);
          FirstPageIsPaged(conversationsData);
          displayed := firstPage;
          currentPage := 0;
        case FetchFailed =>
          all := [];
          displayed := [];
      }
      isLoading := false;
    }

    /** The start of `loadMoreConversations`: ignored while a page is already being loaded,
        otherwise marks one as being loaded. Reports whether it started one. */
    method BeginLoadMore() returns (started: bool)
      modifies this
      ensures started == !old(isLoadingMore)
      ensures isLoadingMore
      ensures all == old(all) && displayed == old(displayed) && currentPage == old(currentPage)
      ensures isLoading == old(isLoading)
    {
      if isLoadingMore {
        return false;
      }
      isLoadingMore := true;
      started := true;
    }

    /** The delayed part of `loadMoreConversations`: the conversations of the next page are
        appended and the page advances, unless there are none; the loading mark is cleared. */
    method CompleteLoadMore()
      requires Valid()
      modifies this
      ensures Valid()
      ensures all == old(all) && isLoading == old(isLoading) && !isLoadingMore
      ensures NextChunk(old(all), old(currentPage)) != [] ==>
        displayed == old(displayed) + NextChunk(old(all), old(currentPage)) && currentPage == old(currentPage) + 1
      ensures NextChunk(old(all), old(currentPage)) == [] ==>
        displayed == old(displayed) && currentPage == old(currentPage)
    {
      var nextPage := currentPage + 1;
      var startIndex := nextPage * PageSize;
      var endIndex := startIndex + PageSize;
      var newConversations := Slice(all, startIndex, endIndex);
      if |newConversations| > 0 {
        NextChunkExtends(all, displayed, currentPage);
        displayed := displayed + newConversations;
        currentPage := nextPage;
      }
      isLoadingMore := false;
    }

    /** The scroll handler's test: the list is scrolled to within 20 pixels of its end, some
        conversations are not shown yet, and no page is being loaded. */
    predicate ShouldLoadMore(scrollTop: int, scrollHeight: int, clientHeight: int)
      reads this
    {
      scrollHeight - scrollTop <= clientHeight + 20 && |displayed| < |all| && !isLoadingMore
    }

    /** `onScroll`: a page load starts exactly when the scroll test holds; nothing else changes. */
    method OnScroll(scrollTop: int, scrollHeight: int, clientHeight: int) returns (started: bool)
      modifies this
      ensures started == old(ShouldLoadMore(scrollTop, scrollHeight, clientHeight))
      ensures started ==> isLoadingMore
      ensures !started ==> isLoadingMore == old(isLoadingMore)
      ensures all == old(all) && displayed == old(displayed) && currentPage == old(currentPage)
      ensures isLoading == old(isLoading)
    {
      started := false;
      if scrollHeight - scrollTop <= clientHeight + 20 {
        if |displayed| < |all| && !isLoadingMore {
          started := BeginLoadMore();
        }
      }
    }

    /** A load the scroll handler asks for is always started and always shows more conversations. */
    lemma ScrollLoadProgresses(scrollTop: int, scrollHeight: int, clientHeight: int)
      requires Valid() && ShouldLoadMore(scrollTop, scrollHeight, clientHeight)
      ensures !isLoadingMore
      ensures NextChunk(all, currentPage) != []
    {
      MoreLeftMeansProgress(all, displayed, currentPage);
    }
  }
}

=== FILE: formatted_text.dfy ===
/** The top level of a chat message's body (`FormattedText` in
    client/src/components/chat-messages.tsx): the content is split by the fence regex, and every
    part that starts and ends with three backticks is shown as a code block, every other part that
    is not blank as formatted prose, and blank parts not at all. */
module FormattedText {
  import opened JsText
  import opened RegexSplit
  import MarkdownBlocks
  import InlineFormat

  /** What one part of the message is shown as. A prose part is handed on untrimmed to the block
      parser (`FormatMarkdown` of module MarkdownBlocks). */
  datatype Segment =
    | CodeBlock(language: string, code: string)  // the language header is shown when non-empty
    | Prose(text: string)

  /** The parts of `content` under the fence regex: text, fence, text, ..., fence, text. */
  function FenceParts(content: string): seq<string> {
    SplitBy(Fence, content)
  }

  /** `part.startsWith('```') && part.endsWith('```')` */
  predicate IsFencePart(part: string) {
    StartsWith(part, Ticks) && EndsWith(part, Ticks)
  }

  /** `part.slice(3, -3).trim()` */
  function CodeContent(part: string): string {
    Trim(Slice(part, 3, -3))
  }

  /** The test `/^[a-zA-Z]+$/` on the first line of a code block. */
  predicate IsLanguage(line: string) {
    |line| > 0 && forall k :: 0 <= k < |line| ==> IsAsciiLetter(line[k])
  }

  /** The code block a fence part is shown as: when the first line of its content is a word of
      ASCII letters that word is the language and the remaining lines are the code; otherwise there
      is no language and the whole content is the code. */
  function CodeBlockOf(part: string): Segment {
    var content := CodeContent(part);
    var lines := SplitOn(content, '\n');
    var language := if IsLanguage(lines[0]) then lines[0] else "";
    var code := if language != "" then Join(lines[1..], '\n') else content;
    CodeBlock(language, code)
  }

  /** How one part is shown, or `None` for the `null` of a blank part. */
  function Render(part: string): Option<Segment> {
    if IsFencePart(part) then Some(CodeBlockOf(part))
    else if Trim(part) != [] then Some(Prose(part))
    else None
  }

  /** A part that starts and ends with three backticks is a code block; any other part is shown
      as prose, untrimmed, unless it is all whitespace, and then it is not shown at all. */
  lemma RenderShape(part: string)
    ensures IsFencePart(part) ==> Render(part) == Some(CodeBlockOf(part))
    ensures !IsFencePart(part) ==> (Render(part).None? <==> AllSpace(part))
    ensures !IsFencePart(part) && !AllSpace(part) ==> Render(part) == Some(Prose(part))
  {
    TrimSpec(part);
  }

  /** `FormattedText({ content })`: one entry per part of the split, in order. */
  function FormatContent(content: string): (segments: seq<Option<Segment>>)
    ensures |segments| == |FenceParts(content)|
  {
    var parts := FenceParts(content);
    seq(|parts|, k requires 0 <= k < |parts| => Render(parts[k]))
  }

  /** A code block stands for its content: there is a language exactly when the first line of
      the trimmed content is a word of letters, and then it is that line; with no language the code
      is the whole trimmed content; with a language, the content is the language alone (then the
      code is empty) or the language, a line break and the code. */
  lemma CodeBlockReassembles(part: string)
    ensures var seg, content := CodeBlockOf(part), CodeContent(part);
      && (seg.language != "" <==> IsLanguage(SplitOn(content, '\n')[0]))
      && (IsLanguage(SplitOn(content, '\n')[0]) ==> seg.language == SplitOn(content, '\n')[0])
      && (seg.language == "" ==> seg.code == content)
      && (seg.language != "" ==> IsLanguage(seg.language) && '\n' !in seg.language)
      && (seg.language != "" && '\n' in content ==> content == seg.language + "\n" + seg.code)
      && (seg.language != "" && '\n' !in content ==> content == seg.language && seg.code == "")
  {
    var content := CodeContent(part);
    var lines := SplitOn(content, '\n');
    SplitOnPieces(content, '\n');
    if '\n' in content {
      SplitHead(content, '\n');
    }
  }

  /** A single word between the fences is taken as the language, and the code is empty. */
  lemma LoneWordIsLanguage()
    ensures CodeBlockOf("```\nhello\n```") == CodeBlock("hello", "")
  {
    LoneWordContent();
    assert SplitOn("hello", '\n') == ["hello"];
  }

  lemma LoneWordContent()
    ensures CodeContent("```\nhello\n```") == "hello"
  {
    assert Slice("```\nhello\n```", 3, -3) == "\nhello\n";
    assert "\nhello\n"[1..] == "hello\n";
    assert "hello\n"[..5] == "hello";
    assert Trim("hello") == "hello";
  }

  /** A language line followed by code. */
  lemma LanguageAndCode()
    ensures CodeBlockOf("```py\nx\n```") == CodeBlock("py", "x")
  {
    LanguageAndCodeContent();
    assert IndexFrom("py\nx", '\n', 0) == Some(2);
    assert "py\nx"[3..] == "x" && "py\nx"[..2] == "py";
    assert IndexFrom("x", '\n', 0) == None;
    assert SplitOn("py\nx", '\n') == ["py", "x"];
  }

  lemma LanguageAndCodeContent()
    ensures CodeContent("```py\nx\n```") == "py\nx"
  {
    assert Slice("```py\nx\n```", 3, -3) == "py\nx\n";
    assert "py\nx\n"[..4] == "py\nx";
    assert Trim("py\nx") == "py\nx";
  }

  predicate AllTicks(w: string) {
    forall k :: 0 <= k < |w| ==> w[k] == '`'
  }

  /** A captured fence starts and ends with three backticks. */
  lemma FenceTokenIsFencePart(w: string)
    requires IsFenceToken(w)
    ensures IsFencePart(w)
  {
    assert w[|w| - 3..] == w[|w| - 3..|w|];
  }

  /** A string that starts and ends with three backticks and has room for both without overlap
      begins with a fence match. */
  lemma LongFencePartMatches(t: string, n: nat)
    requires 6 <= n <= |t| && IsFencePart(t[..n])
    ensures MatchAt(Fence, t).Some?
  {
    var w := t[..n];
    assert TicksAt(w, 0) && TicksAt(w, n - 3);
    TicksAtPrefix(t, n, 0);
    TicksAtPrefix(t, n, n - 3);
    assert TicksFrom(t, 3).Some?;
  }

  /** Three to five backticks directly followed by three more begin with a fence match. */
  lemma ShortFenceRunMatches(t: string, n: nat)
    requires 3 <= n < 6 && n + 3 <= |t| && AllTicks(t[..n]) && TicksAt(t, n)
    ensures MatchAt(Fence, t).Some?
  {
    assert t[0] == t[..n][0] && t[1] == t[..n][1] && t[2] == t[..n][2];
    assert TicksAt(t, 0);
    assert TicksFrom(t, 3).Some?;
  }

  /** A part that starts and ends with three backticks but is shorter than six characters is
      made of backticks only. */
  lemma ShortFencePartTicks(w: string)
    requires IsFencePart(w) && |w| < 6
    ensures 3 <= |w| && AllTicks(w)
  {
    assert w[..3] == Ticks && w[|w| - 3..] == Ticks;
    forall k | 0 <= k < |w| ensures w[k] == '`' {
      if k < 3 { assert w[k] == w[..3][k]; } else { assert w[k] == w[|w| - 3..][k - (|w| - 3)]; }
    }
  }

  /** An uncaptured part is shown as a code block only when it is the last part and consists of
      three to five backticks: an unclosed fence at the end of the message. Any longer text
      starting and ending with three backticks would have been captured by the regex. */
  lemma TextPartAsCode(content: string, k: nat)
    requires k < |FenceParts(content)| && k % 2 == 0
    ensures var parts := FenceParts(content);
      IsFencePart(parts[k]) <==> (k == |parts| - 1 && 3 <= |parts[k]| <= 5 && AllTicks(parts[k]))
  {
    var parts := FenceParts(content);
    var w := parts[k];
    if IsFencePart(w) {
      FencePartIsTrailing(content, k);
    }
    if 3 <= |w| && AllTicks(w) {
      AllTicksFencePart(w);
    }
  }

  lemma FencePartIsTrailing(content: string, k: nat)
    requires k < |FenceParts(content)| && k % 2 == 0
    requires IsFencePart(FenceParts(content)[k])
    ensures var parts := FenceParts(content);
      k == |parts| - 1 && 3 <= |parts[k]| <= 5 && AllTicks(parts[k])
  {
    GapOf(content, k);
    var parts := FenceParts(content);
    var last := k + 1 == |parts|;
    FencePartInGap(Rest(MatcherOf(Fence), content, k / 2), parts[k], last, if last then "" else parts[k + 1]);
  }

  /** Where an uncaptured part sits in the text that remains after the matches before it. */
  lemma GapOf(content: string, k: nat)
    requires k < |FenceParts(content)| && k % 2 == 0
    ensures var parts := FenceParts(content);
      var last := k + 1 == |parts|;
      InGap(Rest(MatcherOf(Fence), content, k / 2), parts[k], last, if last then "" else parts[k + 1])
  {
    SplitGapContext(Fence, content, k);
    if k + 1 < |FenceParts(content)| {
      NextPartIsFence(content, k);
    }
  }

  /** `w` is a text part at the front of the remaining text `t`, where no fence match starts, and
      it is followed by the captured fence `f` unless it is the last part. */
  predicate InGap(t: string, w: string, last: bool, f: string) {
    && |w| <= |t| && t[..|w|] == w && (0 < |w| ==> MatchAt(Fence, t).None?)
    && (!last ==> IsFenceToken(f) && |w| + |f| <= |t| && t[|w|..|w| + |f|] == f)
  }

  /** A text part that starts and ends with three backticks is the last part and a run of three
      to five backticks. */
  lemma FencePartInGap(t: string, w: string, last: bool, f: string)
    requires InGap(t, w, last, f) && IsFencePart(w)
    ensures last && 3 <= |w| <= 5 && AllTicks(w)
  {
    if 6 <= |w| {
      LongFencePartMatches(t, |w|);
      assert false;
    }
    ShortFencePartTicks(w);
    if !last {
      NextFenceAfter(t, w, f);
      assert false;
    }
  }

  /** Three or more backticks start and end with three backticks. */
  lemma AllTicksFencePart(w: string)
    requires 3 <= |w| && AllTicks(w)
    ensures IsFencePart(w)
  {
    assert w[..3] == Ticks && w[|w| - 3..] == Ticks;
  }

  /** The part after an uncaptured part is a captured fence. */
  lemma NextPartIsFence(content: string, k: nat)
    requires k + 1 < |FenceParts(content)| && k % 2 == 0
    ensures IsFenceToken(FenceParts(content)[k + 1])
  {
    assert (k + 1) % 2 == 1;
    SplitByTokens(Fence, content);
  }

  /** A short run of backticks directly followed by a captured fence starts a fence match. */
  lemma NextFenceAfter(t: string, w: string, f: string)
    requires 3 <= |w| < 6 && AllTicks(w) && IsFenceToken(f)
    requires |w| + |f| <= |t| && t[..|w|] == w && t[|w|..|w| + |f|] == f
    ensures MatchAt(Fence, t).Some?
  {
    assert t[..|w|] == w;
    forall k | 0 <= k < |w| ensures t[..|w|][k] == '`' { }
    assert t[|w|..|w| + 3] == f[..3];
    ShortFenceRunMatches(t, |w|);
  }

  /** Every captured fence is shown as a code block, and so is a trailing unclosed run of three
      to five backticks; no other part is. */
  lemma CodeBlockParts(content: string)
    ensures var parts := FenceParts(content);
      forall k :: 0 <= k < |parts| ==>
        (Render(parts[k]).Some? && Render(parts[k]).value.CodeBlock? <==>
          (k % 2 == 1 || (k == |parts| - 1 && 3 <= |parts[k]| <= 5 && AllTicks(parts[k]))))
  {
    var parts := FenceParts(content);
    SplitByTokens(Fence, content);
    forall k | 0 <= k < |parts|
      ensures Render(parts[k]).Some? && Render(parts[k]).value.CodeBlock? <==>
        (k % 2 == 1 || (k == |parts| - 1 && 3 <= |parts[k]| <= 5 && AllTicks(parts[k])))
    {
      if k % 2 == 1 {
        FenceTokenIsFencePart(parts[k]);
      } else {
        TextPartAsCode(content, k);
      }
    }
  }

  /** A message that is empty or only whitespace has a single part, shown as nothing. */
  lemma BlankContentShowsNothing(content: string)
    requires AllSpace(content)
    ensures FormatContent(content) == [None]
  {
    var m := MatcherOf(Fence);
    forall q | 0 <= q < |content| ensures m(content[q..]).None? {
      assert content[q..][0] == content[q];
      assert m(content[q..]) == MatchAt(Fence, content[q..]);
    }
    NoMatchNoSplit(m, content, 0);
    assert FenceParts(content) == [content];
    TrimSpec(content);
    assert !StartsWith(content, Ticks) by {
      if 3 <= |content| {
        assert content[..3][0] == content[0];
      }
    }
    assert Render(content) == None;
  }

  /** What each entry of `FormattedText` shows: a code block exactly for a captured fence or the
      trailing run of three to five backticks, and then the block `CodeBlockOf` builds; nothing
      exactly for an all-whitespace part; otherwise the part itself, untrimmed, as prose. */
  lemma FormatContentShape(content: string)
    ensures var parts, segs := FenceParts(content), FormatContent(content);
      && |segs| == |parts|
      && forall k :: 0 <= k < |parts| ==>
        && (segs[k].Some? && segs[k].value.CodeBlock? <==>
              (k % 2 == 1 || (k == |parts| - 1 && 3 <= |parts[k]| <= 5 && AllTicks(parts[k]))))
        && (segs[k].Some? && segs[k].value.CodeBlock? ==> segs[k].value == CodeBlockOf(parts[k]))
        && (segs[k].None? <==> AllSpace(parts[k]))
        && (segs[k].Some? && segs[k].value.Prose? ==> segs[k].value.text == parts[k])
  {
    var parts := FenceParts(content);
    CodeBlockParts(content);
    forall k | 0 <= k < |parts|
      ensures FormatContent(content)[k] == Render(parts[k])
      ensures Render(parts[k]).None? <==> AllSpace(parts[k])
    {
      RenderShape(parts[k]);
      if AllSpace(parts[k]) && IsFencePart(parts[k]) {
        assert parts[k][..3][0] == parts[k][0];
      }
    }
  }

  /** A one-line message with no backtick, no asterisk and no leading heading or list marker is
      shown end to end as one paragraph whose text is the trimmed message, in plain text: the
      fence split leaves it whole as prose, the block parser makes one paragraph of it, and the
      inline split leaves its text whole. */
  lemma PlainLineIsParagraph(s: string)
    requires '`' !in s && '*' !in s && '\n' !in s
    requires MarkdownBlocks.Kind(Trim(s)) == MarkdownBlocks.TextLine
    ensures FormatContent(s) == [Some(Prose(s))]
    ensures MarkdownBlocks.Blocks(MarkdownBlocks.TrimAll(SplitOn(s, '\n'))) == [MarkdownBlocks.Paragraph(Trim(s))]
    ensures MarkdownBlocks.InlineContent(MarkdownBlocks.Paragraph(Trim(s))) == [[InlineFormat.Plain(Trim(s))]]
  {
    var t := Trim(s);
    TrimSpec(s);
    NoFenceIsProse(s);
    OneLineOneParagraph(s);
    var i, j := TrimBounds(s);
    assert '`' !in t && '*' !in t by {
      forall q | 0 <= q < |t| ensures t[q] != '`' && t[q] != '*' {
        assert t[q] == s[i + q];
      }
    }
    NoDelimiterIsPlain(t);
  }

  /** Without a backtick the fence split leaves a message whole, shown as prose when not blank. */
  lemma NoFenceIsProse(s: string)
    requires '`' !in s && !AllSpace(s)
    ensures FormatContent(s) == [Some(Prose(s))]
  {
    var m := MatcherOf(Fence);
    forall q | 0 <= q < |s| ensures m(s[q..]).None? {
      assert s[q..][0] == s[q];
      assert m(s[q..]) == MatchAt(Fence, s[q..]);
    }
    NoMatchNoSplit(m, s, 0);
    assert FenceParts(s) == [s];
    assert !IsFencePart(s) by {
      if 3 <= |s| {
        assert s[..3][0] == s[0];
      }
    }
    RenderShape(s);
  }

  /** A line without a line break is parsed as one paragraph when its trimmed text is one. */
  lemma OneLineOneParagraph(s: string)
    requires '\n' !in s
    requires MarkdownBlocks.Kind(Trim(s)) == MarkdownBlocks.TextLine
    ensures MarkdownBlocks.Blocks(MarkdownBlocks.TrimAll(SplitOn(s, '\n'))) == [MarkdownBlocks.Paragraph(Trim(s))]
  {
    assert IndexFrom(s, '\n', 0) == None;
    var lines: seq<string> := [Trim(s)];
    assert MarkdownBlocks.TrimAll([s]) == lines;
    assert lines[1..] == [];
  }

  /** Text with no backtick and no asterisk is one plain span. */
  lemma NoDelimiterIsPlain(t: string)
    requires '`' !in t && '*' !in t
    ensures InlineFormat.FormatInline(t) == [InlineFormat.Plain(t)]
  {
    var m := MatcherOf(Inline);
    forall q | 0 <= q < |t| ensures m(t[q..]).None? {
      assert t[q..][0] == t[q];
      assert m(t[q..]) == MatchAt(Inline, t[q..]);
    }
    NoMatchNoSplit(m, t, 0);
    assert InlineFormat.InlineParts(t) == [t];
    assert !StartsWith(t, "`") && !StartsWith(t, "*") by {
      if 1 <= |t| {
        assert t[..1][0] == t[0];
      }
    }
  }
}

=== FILE: inline_format.dfy ===
/** The inline formatter of chat messages (`formatInlineElements` in
    client/src/components/chat-messages.tsx): a line of text is split by the inline regex into
    plain text and captured spans, and every part is then classified on its own by its
    delimiters. The inner text of a span is shown as it is, never scanned again. */
module InlineFormat {
  import opened JsText
  import opened RegexSplit

  datatype Span =
    | Plain(text: string)   // shown as it is
    | Code(text: string)    // <code>
    | Bold(text: string)    // <strong>
    | Italic(text: string)  // <em>

  /** The characters a span stands for in the message: its text inside its delimiters. */
  function Source(sp: Span): string {
    match sp
    case Plain(x) => x
    case Code(x) => "`" + x + "`"
    case Bold(x) => "**" + x + "**"
    case Italic(x) => "*" + x + "*"
  }

  /** How one part of the split is shown: code when it has a backtick at both ends and more than
      two characters, else bold when it has two asterisks at both ends and more than four, else
      italic when it has an asterisk at both ends, more than two characters and does not start
      with two asterisks, else plain. The delimiters are sliced off. */
  function ClassifyPart(part: string): (sp: Span)
    ensures Source(sp) == part
  {
    if StartsWith(part, "`") && EndsWith(part, "`") && |part| > 2 then
      CodeRoundTrip(part);
      Code(Slice(part, 1, -1))
    else if StartsWith(part, "**") && EndsWith(part, "**") && |part| > 4 then
      BoldRoundTrip(part);
      Bold(Slice(part, 2, -2))
    else if StartsWith(part, "*") && EndsWith(part, "*") && |part| > 2 && !StartsWith(part, "**") then
      ItalicRoundTrip(part);
      Italic(Slice(part, 1, -1))
    else
      Plain(part)
  }

  lemma CodeRoundTrip(part: string)
    requires StartsWith(part, "`") && EndsWith(part, "`") && |part| > 2
    ensures Source(Code(Slice(part, 1, -1))) == part
  {
    SliceBothEnds(part, 1);
    var x := part[1..|part| - 1];
    assert part == [part[0]] + x + [part[|part| - 1]];
  }

  lemma BoldRoundTrip(part: string)
    requires StartsWith(part, "**") && EndsWith(part, "**") && |part| > 4
    ensures Source(Bold(Slice(part, 2, -2))) == part
  {
    SliceBothEnds(part, 2);
    var x := part[2..|part| - 2];
    assert part == part[..2] + x + part[|part| - 2..];
  }

  lemma ItalicRoundTrip(part: string)
    requires StartsWith(part, "*") && EndsWith(part, "*") && |part| > 2
    ensures Source(Italic(Slice(part, 1, -1))) == part
  {
    SliceBothEnds(part, 1);
    var x := part[1..|part| - 1];
    assert part == [part[0]] + x + [part[|part| - 1]];
  }

  /** The parts of `text` under the inline regex: plain, span, plain, ..., span, plain. */
  function InlineParts(text: string): seq<string> {
    SplitBy(Inline, text)
  }

  /** `formatInlineElements(text)`: every part of the split, classified. */
  function FormatInline(text: string): seq<Span> {
    var parts := InlineParts(text);
    seq(|parts|, k requires 0 <= k < |parts| => ClassifyPart(parts[k]))
  }

  /** There is one span per part, and each span stands for its part. */
  lemma FormatInlineParts(text: string)
    ensures |FormatInline(text)| == |InlineParts(text)|
    ensures forall k :: 0 <= k < |InlineParts(text)| ==> Source(FormatInline(text)[k]) == InlineParts(text)[k]
  {
  }

  /** The text the spans stand for, in order. */
  function SourceOf(spans: seq<Span>): string
    decreases |spans|
  {
    if spans == [] then [] else Source(spans[0]) + SourceOf(spans[1..])
  }

  lemma {:induction false} SourceOfConcat(spans: seq<Span>, parts: seq<string>)
    requires |spans| == |parts|
    requires forall k :: 0 <= k < |spans| ==> Source(spans[k]) == parts[k]
    ensures SourceOf(spans) == Concat(parts)
    decreases |spans|
  {
    if spans != [] {
      SourceOfConcat(spans[1..], parts[1..]);
    }
  }

  /** Formatting loses nothing: the spans stand for exactly the original text, in order. */
  lemma FormatInlineLossless(text: string)
    ensures SourceOf(FormatInline(text)) == text
  {
    FormatInlineParts(text);
    SourceOfConcat(FormatInline(text), InlineParts(text));
    SplitByConcat(Inline, text);
  }

  /** A captured token is shown as a span of its own kind, with its delimiters removed: a code
      token as code, a bold token as bold, an italic token as italic. */
  lemma TokenSpan(w: string)
    requires IsToken(Inline, w)
    ensures IsCodeToken(w) ==> ClassifyPart(w) == Code(w[1..|w| - 1])
    ensures IsBoldToken(w) ==> ClassifyPart(w) == Bold(w[2..|w| - 2])
    ensures IsItalicToken(w) ==> ClassifyPart(w) == Italic(w[1..|w| - 1])
    ensures !ClassifyPart(w).Plain?
  {
    var sp := ClassifyPart(w);
    if IsCodeToken(w) {
      assert sp.Code?;
    } else if IsBoldToken(w) {
      assert sp.Bold?;
    } else {
      assert w[1] != '*';
      assert sp.Italic?;
    }
  }

  /** Every captured (odd-indexed) part is shown as code, bold or italic, and the inner text
      holds no delimiter of its kind. */
  lemma CapturedSpans(text: string)
    ensures forall k :: 0 <= k < |FormatInline(text)| && k % 2 == 1 ==>
      match FormatInline(text)[k]
      case Plain(_) => false
      case Code(x) => '`' !in x
      case Bold(x) => '*' !in x
      case Italic(x) => '*' !in x
  {
    var parts := InlineParts(text);
    SplitByTokens(Inline, text);
    forall k | 0 <= k < |parts| && k % 2 == 1
      ensures match ClassifyPart(parts[k])
        case Plain(_) => false
        case Code(x) => '`' !in x
        case Bold(x) => '*' !in x
        case Italic(x) => '*' !in x
    {
      TokenSpan(parts[k]);
    }
  }

  /** A string that opens with `*`, not `**`, and has another `*` further on starts with an
      italic match. */
  lemma ItalicAtFront(t: string, n: nat)
    requires 3 <= n <= |t| && t[0] == '*' && t[1] != '*' && t[n - 1] == '*'
    ensures MatchAt(Inline, t).Some?
  {
    assert IndexFrom(t, '*', 1).Some?;
  }

  /** A text part that no inline match starts in is never shown as italic. */
  lemma GapNotItalic(t: string, w: string)
    requires |w| <= |t| && t[..|w|] == w
    requires 0 < |w| ==> MatchAt(Inline, t).None?
    ensures !ClassifyPart(w).Italic?
  {
    if ClassifyPart(w).Italic? {
      assert t[0] == w[0] && t[1] == w[1] && t[|w| - 1] == w[|w| - 1];
      ItalicAtFront(t, |w|);
    }
  }

  /** An uncaptured (even-indexed) part is never shown as italic: a string the italic test
      accepts always holds an italic match at its start, which the split would have taken. */
  lemma PlainPartsNotItalic(text: string)
    ensures forall k :: 0 <= k < |FormatInline(text)| && k % 2 == 0 ==> !FormatInline(text)[k].Italic?
  {
    var parts := InlineParts(text);
    forall k | 0 <= k < |parts| && k % 2 == 0 ensures !ClassifyPart(parts[k]).Italic? {
      SplitGapContext(Inline, text, k);
      GapNotItalic(Rest(MatcherOf(Inline), text, k / 2), parts[k]);
    }
  }
}

=== FILE: js_text.dfy ===
/** JavaScript string behaviour that the chat client and server rely on, over `seq<char>`:
    the `\s` / `trim` whitespace class, `slice` and `substring` index clamping,
    `split` on a single character and `join`, and the decimal rendering of a count
    inside a template literal. */
module JsText {

  datatype Option<+T> = None | Some(value: T) {
    function GetOr(default: T): T {
      match this
      case Some(v) => v
      case None => default
    }
  }

  function Min(a: int, b: int): int { if a < b then a else b }

  /** ECMAScript WhiteSpace and LineTerminator: the characters `trim` removes and `\s` matches. */
  predicate IsSpace(c: char) {
    || c == '\t' || c == '\n' || c == '\U{000B}' || c == '\U{000C}' || c == '\r' || c == ' '
    || c == '\U{00A0}' || c == '\U{1680}' || ('\U{2000}' <= c <= '\U{200A}')
    || c == '\U{2028}' || c == '\U{2029}' || c == '\U{202F}' || c == '\U{205F}'
    || c == '\U{3000}' || c == '\U{FEFF}'
  }

  /** The regex class `\d`. */
  predicate IsDigit(c: char) { '0' <= c <= '9' }

  /** The regex class `[a-zA-Z]`. */
  predicate IsAsciiLetter(c: char) { 'a' <= c <= 'z' || 'A' <= c <= 'Z' }

  predicate AllSpace(s: string) { forall k :: 0 <= k < |s| ==> IsSpace(s[k]) }

  /** `s.startsWith(prefix)` */
  predicate StartsWith(s: string, prefix: string) { |prefix| <= |s| && s[..|prefix|] == prefix }

  /** `s.endsWith(suffix)` */
  predicate EndsWith(s: string, suffix: string) { |suffix| <= |s| && s[|s| - |suffix|..] == suffix }

  /** Removes leading whitespace, as the regex prefix `^\s*` does. */
  function TrimStart(s: string): string {
    if s != [] && IsSpace(s[0]) then TrimStart(s[1..]) else s
  }

  /** The result of `TrimStart` is the longest suffix of `s` that does not start with whitespace:
      a suffix, with only whitespace cut off before it. */
  lemma {:induction false} TrimStartSpec(s: string)
    ensures |TrimStart(s)| <= |s| && TrimStart(s) == s[|s| - |TrimStart(s)|..]
    ensures AllSpace(s[..|s| - |TrimStart(s)|])
    ensures TrimStart(s) == [] || !IsSpace(TrimStart(s)[0])
  {
    if s != [] && IsSpace(s[0]) {
      var t := s[1..];
      TrimStartSpec(t);
      var r := TrimStart(t);
      assert s[|s| - |r|..] == t[|t| - |r|..];
      assert s[..|s| - |r|] == [s[0]] + t[..|t| - |r|];
      AllSpaceConcat([s[0]], t[..|t| - |r|]);
    } else {
      assert s[..0] == [];
    }
  }

  /** `s.trim()`: whitespace removed from both ends. */
  function Trim(s: string): string
    decreases |s|
  {
    if s != [] && IsSpace(s[0]) then Trim(s[1..])
    else if s != [] && IsSpace(s[|s| - 1]) then Trim(s[..|s| - 1])
    else s
  }

  /** Trimming keeps a contiguous middle of the string and removes only whitespace around it,
      yields the empty string exactly for all-whitespace input, and leaves no whitespace at either
      end (so the middle it keeps is the largest one). */
  lemma {:induction false} TrimSpec(s: string)
    ensures |Trim(s)| <= |s|
    ensures exists i, j :: 0 <= i <= j <= |s| && Trim(s) == s[i..j] && AllSpace(s[..i]) && AllSpace(s[j..])
    ensures Trim(s) == [] <==> AllSpace(s)
    ensures Trim(s) == [] || (!IsSpace(Trim(s)[0]) && !IsSpace(Trim(s)[|Trim(s)| - 1]))
    decreases |s|
  {
    var i, j := TrimBounds(s);
    if s != [] && IsSpace(s[0]) {
      var t := s[1..];
      TrimSpec(t);
      assert AllSpace(t) ==> AllSpace(s) by {
        if AllSpace(t) {
          forall k | 0 <= k < |s| ensures IsSpace(s[k]) {
            if k > 0 { assert s[k] == t[k - 1]; }
          }
        }
      }
    } else if s != [] && IsSpace(s[|s| - 1]) {
      var t := s[..|s| - 1];
      TrimSpec(t);
      assert !AllSpace(s);
    }
  }

  /** Where the trimmed middle sits: `Trim(s)` is `s[i..j]` with only whitespace before `i` and
      after `j`. */
  lemma {:induction false} TrimBounds(s: string) returns (i: nat, j: nat)
    ensures i <= j <= |s| && Trim(s) == s[i..j] && AllSpace(s[..i]) && AllSpace(s[j..])
    decreases |s|
  {
    if s != [] && IsSpace(s[0]) {
      var t := s[1..];
      var i', j' := TrimBounds(t);
      i, j := i' + 1, j' + 1;
      assert s[i..j] == t[i'..j'];
      AllSpaceConcat([s[0]], t[..i']);
      assert s[..i] == [s[0]] + t[..i'];
      assert s[j..] == t[j'..];
    } else if s != [] && IsSpace(s[|s| - 1]) {
      var t := s[..|s| - 1];
      i, j := TrimBounds(t);
      assert s[i..j] == t[i..j];
      assert s[..i] == t[..i];
      AllSpaceConcat(t[j..], [s[|s| - 1]]);
      assert s[j..] == t[j..] + [s[|s| - 1]];
    } else {
      i, j := 0, |s|;
      assert s[0..|s|] == s;
    }
  }

  lemma AllSpaceConcat(a: string, b: string)
    requires AllSpace(a) && AllSpace(b)
    ensures AllSpace(a + b)
  {
    forall k | 0 <= k < |a + b| ensures IsSpace((a + b)[k]) {
      if k >= |a| { assert (a + b)[k] == b[k - |a|]; }
    }
  }

  /** Trimming is idempotent, and a string is its own trim exactly when it has no whitespace at either end. */
  lemma TrimFixedPoint(s: string)
    ensures Trim(s) == s <==> (s == [] || (!IsSpace(s[0]) && !IsSpace(s[|s| - 1])))
    ensures Trim(Trim(s)) == Trim(s)
  {
    TrimSpec(s);
  }

  /** A position argument of `slice`: negative counts from the end, then clamped to `[0, len]`. */
  function SliceIndex(i: int, len: nat): (r: nat)
    ensures r <= len
  {
    if i < 0 then (if len + i < 0 then 0 else len + i)
    else if i > len then len
    else i
  }

  /** `s.slice(start, end)` for strings and arrays. */
  function Slice<T>(s: seq<T>, start: int, end: int): (r: seq<T>)
    ensures |r| <= |s|
  {
    var from := SliceIndex(start, |s|);
    var to := SliceIndex(end, |s|);
    if from < to then s[from..to] else []
  }

  /** `s.slice(k, -k)` drops `k` elements at each end, and is empty when there are not enough. */
  lemma SliceBothEnds<T>(s: seq<T>, k: int)
    requires k > 0
    ensures |s| >= 2 * k ==> Slice(s, k, -k) == s[k..|s| - k]
    ensures |s| < 2 * k ==> Slice(s, k, -k) == []
  {
  }

  /** `s.substring(start, end)`: both positions clamped to `[0, len]`, swapped when reversed. */
  function Substring(s: string, start: int, end: int): (r: string)
    ensures |r| <= |s|
  {
    var a := if start < 0 then 0 else if start > |s| then |s| else start;
    var b := if end < 0 then 0 else if end > |s| then |s| else end;
    if a <= b then s[a..b] else s[b..a]
  }

  /** `s.substring(0, n)` is the first `min(n, |s|)` characters. */
  lemma SubstringPrefix(s: string, n: nat)
    ensures Substring(s, 0, n) == s[..Min(n, |s|)]
  {
  }

  /** The first index at or after `from` holding `c`. */
  function IndexFrom(s: string, c: char, from: nat): (r: Option<nat>)
    ensures r.Some? ==> from <= r.value < |s| && s[r.value] == c
    ensures r.Some? ==> forall m :: from <= m < r.value ==> s[m] != c
    ensures r.None? ==> forall m :: from <= m < |s| ==> s[m] != c
    decreases |s| - from
  {
    if from >= |s| then None
    else if s[from] == c then Some(from)
    else IndexFrom(s, c, from + 1)
  }

  /** `s.split(sep)` for a one-character separator: never empty, and no piece contains `sep`. */
  function SplitOn(s: string, sep: char): (parts: seq<string>)
    ensures |parts| >= 1
    decreases |s|
  {
    match IndexFrom(s, sep, 0)
    case None => [s]
    case Some(k) => [s[..k]] + SplitOn(s[k + 1..], sep)
  }

  /** No piece of a split holds the separator, and there is more than one piece exactly when the
      string holds it. */
  lemma {:induction false} SplitOnPieces(s: string, sep: char)
    ensures forall k :: 0 <= k < |SplitOn(s, sep)| ==> sep !in SplitOn(s, sep)[k]
    ensures |SplitOn(s, sep)| == 1 <==> sep !in s
    decreases |s|
  {
    match IndexFrom(s, sep, 0)
    case None =>
    case Some(k) =>
      SplitOnPieces(s[k + 1..], sep);
  }

  /** `parts.join(sep)` */
  function Join(parts: seq<string>, sep: char): string
    decreases |parts|
  {
    if |parts| == 0 then []
    else if |parts| == 1 then parts[0]
    else parts[0] + [sep] + Join(parts[1..], sep)
  }

  lemma JoinCons(first: string, rest: seq<string>, sep: char)
    requires |rest| >= 1
    ensures Join([first] + rest, sep) == first + [sep] + Join(rest, sep)
  {
    assert ([first] + rest)[1..] == rest;
  }

  /** Joining the pieces of a split gives back the string. */
  lemma {:induction false} JoinSplit(s: string, sep: char)
    ensures Join(SplitOn(s, sep), sep) == s
    decreases |s|
  {
    match IndexFrom(s, sep, 0)
    case None =>
    case Some(k) =>
      var head, tail := s[..k], s[k + 1..];
      var rest := SplitOn(tail, sep);
      assert SplitOn(s, sep) == [head] + rest;
      JoinSplit(tail, sep);
      JoinCons(head, rest, sep);
      assert s == head + [sep] + tail;
  }

  /** Splitting a join of separator-free pieces gives back the pieces. */
  lemma {:induction false} SplitJoin(parts: seq<string>, sep: char)
    requires |parts| >= 1
    requires forall k :: 0 <= k < |parts| ==> sep !in parts[k]
    ensures SplitOn(Join(parts, sep), sep) == parts
    decreases |parts|
  {
    if |parts| > 1 {
      var rest := Join(parts[1..], sep);
      var s := parts[0] + [sep] + rest;
      assert Join(parts, sep) == s;
      FirstSeparator(parts[0], sep, rest);
      assert s[..|parts[0]|] == parts[0];
      assert s[|parts[0]| + 1..] == rest;
      SplitJoin(parts[1..], sep);
      assert parts == [parts[0]] + parts[1..];
    }
  }

  /** The first separator in `a + [sep] + b` is the one after `a` when `a` holds none. */
  lemma FirstSeparator(a: string, sep: char, b: string)
    requires sep !in a
    ensures IndexFrom(a + [sep] + b, sep, 0) == Some(|a|)
  {
    var s := a + [sep] + b;
    assert s[|a|] == sep;
  }

  /** When `s` holds the separator, it is its first piece, the separator, and the join of the rest. */
  lemma SplitHead(s: string, sep: char)
    requires sep in s
    ensures s == SplitOn(s, sep)[0] + [sep] + Join(SplitOn(s, sep)[1..], sep)
  {
    var parts := SplitOn(s, sep);
    JoinSplit(s, sep);
    SplitOnPieces(s, sep);
  }

  /** The concatenation of a sequence of strings. */
  function Concat(parts: seq<string>): string
    decreases |parts|
  {
    if parts == [] then [] else parts[0] + Concat(parts[1..])
  }

  lemma {:induction false} ConcatAppend(a: seq<string>, b: seq<string>)
    ensures Concat(a + b) == Concat(a) + Concat(b)
    decreases |a|
  {
    if a == [] {
      assert a + b == b;
    } else {
      ConcatAppend(a[1..], b);
      assert (a + b)[0] == a[0];
      assert (a + b)[1..] == a[1..] + b;
    }
  }

  function DigitChar(d: nat): (c: char)
    requires d < 10
    ensures IsDigit(c) && DigitValue(c) == d
  {
    (d + '0' as int) as char
  }

  /** The text `${n}` of a non-negative integer: decimal digits, no leading zero. */
  function NatToString(n: nat): (r: string)
    ensures |r| >= 1
    ensures forall k :: 0 <= k < |r| ==> IsDigit(r[k])
    ensures r[0] == '0' <==> n == 0
    decreases n
  {
    if n < 10 then [DigitChar(n)] else NatToString(n / 10) + [DigitChar(n % 10)]
  }

  function DigitValue(c: char): nat
    requires IsDigit(c)
  {
    c as int - '0' as int
  }

  /** The number a string of decimal digits denotes. */
  function DecimalValue(s: string): nat
    requires forall k :: 0 <= k < |s| ==> IsDigit(s[k])
    decreases |s|
  {
    if s == [] then 0
    else DecimalValue(s[..|s| - 1]) * 10 + DigitValue(s[|s| - 1])
  }

  /** Reading back the rendered number gives the number. */
  lemma {:induction false} NatToStringRoundTrip(n: nat)
    ensures DecimalValue(NatToString(n)) == n
    decreases n
  {
    if n >= 10 {
      NatToStringRoundTrip(n / 10);
      var r := NatToString(n);
      assert r[..|r| - 1] == NatToString(n / 10);
    }
  }
}

=== FILE: markdown_blocks.dfy ===
/** The line-oriented block parser of chat messages (`formatMarkdown` in
    client/src/components/chat-messages.tsx). The text is split into lines; every line is trimmed
    and classified in priority order (heading `###`, `##`, `#`; numbered item; bullet item;
    paragraph; spacer), and a list takes the longest run of consecutive lines that pass the
    same list test. `FormatMarkdown` is the loop as written; `Blocks` is the same parse stated
    recursively. */
module MarkdownBlocks {
  import opened JsText
  import opened InlineFormat

  datatype ListKind = Numbered | Bulleted

  /** A block element. The text of a heading, a list item or a paragraph is shown through the
      inline formatter: its element holds `FormatInline(text)`. */
  datatype Block =
    | Heading(level: nat, text: string)         // <h1>, <h2>, <h3>
    | List(kind: ListKind, items: seq<string>)  // <ol> or <ul>, one entry per <li>
    | Paragraph(text: string)                   // <p>
    | Spacer                                    // the empty <div> of a blank line

  /** The inline content of every <li> of a list, or of the one element of a heading or paragraph. */
  function InlineContent(b: Block): seq<seq<Span>> {
    match b
    case Heading(_, text) => [FormatInline(text)]
    case List(_, items) => seq(|items|, k requires 0 <= k < |items| => FormatInline(items[k]))
    case Paragraph(text) => [FormatInline(text)]
    case Spacer => []
  }

  /** The number of decimal digits at the front of `s`. */
  function DigitRun(s: string): (n: nat)
    ensures n <= |s|
    ensures forall k :: 0 <= k < n ==> IsDigit(s[k])
    ensures n < |s| ==> !IsDigit(s[n])
    decreases |s|
  {
    if s != [] && IsDigit(s[0]) then 1 + DigitRun(s[1..]) else 0
  }

  /** The regex test `^\d+\.\s`: digits, a dot, then a whitespace character. */
  predicate IsNumberedItem(line: string) {
    var n := DigitRun(line);
    1 <= n && n + 1 < |line| && line[n] == '.' && IsSpace(line[n + 1])
  }

  /** `line.startsWith('- ') || line.startsWith('* ')` */
  predicate IsBulletItem(line: string) {
    StartsWith(line, "- ") || StartsWith(line, "* ")
  }

  predicate IsItem(kind: ListKind, line: string) {
    match kind
    case Numbered => IsNumberedItem(line)
    case Bulleted => IsBulletItem(line)
  }

  /** The text of a list item: the marker (`^\d+\.` or `^[-*]`) and the whitespace after it
      removed. */
  function ItemText(kind: ListKind, line: string): string
    requires IsItem(kind, line)
  {
    match kind
    case Numbered => TrimStart(line[DigitRun(line) + 1..])
    case Bulleted => TrimStart(line[1..])
  }

  /** The text of a heading of the given level: the first `level` characters (the `#` marks) and
      the whitespace after them removed. */
  function HeadingText(line: string, level: nat): string
    requires level <= |line|
  {
    TrimStart(line[level..])
  }

  /** How one trimmed line starts a block, in the priority order of the parser. */
  datatype LineKind = HeadingLine(level: nat) | ItemLine(kind: ListKind) | TextLine | BlankLine

  function Kind(line: string): LineKind {
    if StartsWith(line, "###") then HeadingLine(3)
    else if StartsWith(line, "##") then HeadingLine(2)
    else if StartsWith(line, "#") then HeadingLine(1)
    else if IsNumberedItem(line) then ItemLine(Numbered)
    else if IsBulletItem(line) then ItemLine(Bulleted)
    else if |line| > 0 then TextLine
    else BlankLine
  }

  /** The priority order of the parser: any line starting with `#` is a heading, of level three
      for `###` or more marks, two for exactly `##` and one for a single `#`; a list item is a line
      that is no heading and passes a list test, numbered before bulleted; only the empty line is
      blank. */
  lemma KindShape(line: string)
    ensures Kind(line).HeadingLine? <==> StartsWith(line, "#")
    ensures Kind(line) == HeadingLine(3) <==> StartsWith(line, "###")
    ensures Kind(line) == HeadingLine(2) <==> StartsWith(line, "##") && !StartsWith(line, "###")
    ensures Kind(line) == HeadingLine(1) <==> StartsWith(line, "#") && !StartsWith(line, "##")
    ensures Kind(line).ItemLine? <==> !StartsWith(line, "#") && (IsNumberedItem(line) || IsBulletItem(line))
    ensures Kind(line).ItemLine? ==> IsItem(Kind(line).kind, line)
    ensures Kind(line) == ItemLine(Numbered) <==> !StartsWith(line, "#") && IsNumberedItem(line)
    ensures Kind(line) == ItemLine(Bulleted) ==> !IsNumberedItem(line)
    ensures Kind(line) == BlankLine <==> line == []
  {
    if StartsWith(line, "###") {
      assert line[..2] == line[..3][..2] && line[..1] == line[..3][..1];
    } else if StartsWith(line, "##") {
      assert line[..1] == line[..2][..1];
    }
  }

  /** Every line of a split message, trimmed: the parser tests and shows only `line.trim()`. */
  function TrimAll(lines: seq<string>): (r: seq<string>)
    ensures |r| == |lines|
    decreases |lines|
  {
    if lines == [] then [] else [Trim(lines[0])] + TrimAll(lines[1..])
  }

  lemma {:induction false} TrimAllAt(lines: seq<string>, k: nat)
    requires k < |lines|
    ensures TrimAll(lines)[k] == Trim(lines[k])
    decreases k
  {
    if k > 0 {
      TrimAllAt(lines[1..], k - 1);
    }
  }

  /** The length of the longest run of (trimmed) lines at the front of `lines` that pass the list
      test of `kind`. */
  function Run(kind: ListKind, lines: seq<string>): (n: nat)
    ensures n <= |lines|
    ensures forall k :: 0 <= k < n ==> IsItem(kind, lines[k])
    ensures n < |lines| ==> !IsItem(kind, lines[n])
    decreases |lines|
  {
    if lines != [] && IsItem(kind, lines[0]) then 1 + Run(kind, lines[1..]) else 0
  }

  /** The list entries made from (trimmed) lines that all pass the list test. */
  function Items(kind: ListKind, lines: seq<string>): (items: seq<string>)
    requires forall k :: 0 <= k < |lines| ==> IsItem(kind, lines[k])
    ensures |items| == |lines|
  {
    seq(|lines|, k requires 0 <= k < |lines| => ItemText(kind, lines[k]))
  }

  /** The block that the first of a (non-empty) sequence of trimmed lines opens, and how many
      lines it takes: one, or the whole run of a list. */
  function FirstBlock(lines: seq<string>): (r: (Block, nat))
    requires lines != []
    ensures 1 <= r.1 <= |lines|
  {
    var line := lines[0];
    match Kind(line)
    case HeadingLine(level) => (Heading(level, HeadingText(line, level)), 1)
    case ItemLine(kind) =>
      var n := Run(kind, lines);
      (List(kind, Items(kind, lines[..n])), n)
    case TextLine => (Paragraph(line), 1)
    case BlankLine => (Spacer, 1)
  }

  /** The blocks of a sequence of trimmed lines. */
  function Blocks(lines: seq<string>): seq<Block>
    decreases |lines|
  {
    if lines == [] then []
    else
      var (block, n) := FirstBlock(lines);
      [block] + Blocks(lines[n..])
  }

  /** When the lines in `[i, j)` all pass the list test and line `j` does not (or there is
      none), the run starting at `i` ends at `j`. */
  lemma {:induction false} RunEndsAt(kind: ListKind, lines: seq<string>, i: nat, j: nat)
    requires i <= j <= |lines|
    requires forall m :: i <= m < j ==> IsItem(kind, lines[m])
    requires j < |lines| ==> !IsItem(kind, lines[j])
    ensures Run(kind, lines[i..]) == j - i
    decreases j - i
  {
    if i < j {
      RunEndsAt(kind, lines, i + 1, j);
      assert lines[i..][1..] == lines[i + 1..];
    } else if i < |lines| {
      assert lines[i..][0] == lines[j];
    }
  }

  /** Extending the collected lines by one item extends the entries by its text. */
  lemma ItemsSnoc(kind: ListKind, lines: seq<string>, i: nat, j: nat)
    requires i <= j < |lines|
    requires forall m :: i <= m <= j ==> IsItem(kind, lines[m])
    ensures Items(kind, lines[i..j + 1]) == Items(kind, lines[i..j]) + [ItemText(kind, lines[j])]
  {
    assert lines[i..j + 1] == lines[i..j] + [lines[j]];
  }

  /** The inner loop of `formatMarkdown` that collects a list: from line `i` on, every line
      whose trimmed text passes the list test becomes an item, up to the first line that does not.
      It returns the items and the index of that line. */
  method CollectItems(lines: seq<string>, kind: ListKind, i: nat) returns (items: seq<string>, j: nat)
    requires i <= |lines|
    ensures j == i + Run(kind, TrimAll(lines)[i..])
    ensures items == Items(kind, TrimAll(lines)[i..j])
  {
    ghost var trimmed := TrimAll(lines);
    items := [];
    j := i;
    while j < |lines| && IsItem(kind, Trim(lines[j]))
      invariant i <= j <= |lines|
      invariant forall m :: i <= m < j ==> IsItem(kind, trimmed[m])
      invariant items == Items(kind, trimmed[i..j])
      decreases |lines| - j
    {
      var line := Trim(lines[j]);
      TrimAllAt(lines, j);
      ItemsSnoc(kind, trimmed, i, j);
      items := items + [ItemText(kind, line)];
      j := j + 1;
    }
    if j < |lines| {
      TrimAllAt(lines, j);
    }
    RunEndsAt(kind, trimmed, i, j);
  }

  /** `Blocks` takes the first block off the front. */
  lemma BlocksStep(lines: seq<string>, i: nat, block: Block, next: nat)
    requires i < next <= |lines|
    requires (block, next - i) == FirstBlock(lines[i..])
    ensures Blocks(lines[i..]) == [block] + Blocks(lines[next..])
  {
    assert lines[i..][next - i..] == lines[next..];
  }

  /** The list that a list line opens takes the whole run of list lines from there. */
  lemma ListBlockAt(trimmed: seq<string>, i: nat, kind: ListKind, items: seq<string>, j: nat)
    requires i < |trimmed| && Kind(trimmed[i]) == ItemLine(kind)
    requires j == i + Run(kind, trimmed[i..])
    requires items == Items(kind, trimmed[i..j])
    ensures (List(kind, items), j - i) == FirstBlock(trimmed[i..])
  {
    assert trimmed[i..][0] == trimmed[i];
    assert trimmed[i..][..j - i] == trimmed[i..j];
  }

  /** One turn of the loop of `formatMarkdown`: the block that line `i` opens and the index of the
      line after it, reached through the rewind `i = j - 1` after a list and the common `i++`. */
  method NextBlock(lines: seq<string>, i: nat) returns (block: Block, next: nat)
    requires i < |lines|
    ensures (block, next - i) == FirstBlock(TrimAll(lines)[i..])
    ensures i < next <= |lines|
  {
    ghost var trimmed := TrimAll(lines);
    TrimAllAt(lines, i);
    var line := Trim(lines[i]);
    assert trimmed[i..][0] == line;
    next := i;
    if StartsWith(line, "###") {
      assert Kind(line) == HeadingLine(3);
      block := Heading(3, HeadingText(line, 3));
    } else if StartsWith(line, "##") {
      assert Kind(line) == HeadingLine(2);
      block := Heading(2, HeadingText(line, 2));
    } else if StartsWith(line, "#") {
      assert Kind(line) == HeadingLine(1);
      block := Heading(1, HeadingText(line, 1));
    } else if IsNumberedItem(line) || IsBulletItem(line) {
      var kind := if IsNumberedItem(line) then Numbered else Bulleted;
      var items, j := CollectItems(lines, kind, i);
      ListBlockAt(trimmed, i, kind, items, j);
      block := List(kind, items);
      next := j - 1;
    } else if |line| > 0 {
      assert Kind(line) == TextLine;
      block := Paragraph(line);
    } else {
      assert Kind(line) == BlankLine;
      block := Spacer;
    }
    next := next + 1;
  }

  /** The number of lines a block was made from. */
  function Height(b: Block): nat {
    if b.List? then |b.items| else 1
  }

  function TotalHeight(blocks: seq<Block>): nat
    decreases |blocks|
  {
    if blocks == [] then 0 else Height(blocks[0]) + TotalHeight(blocks[1..])
  }

  /** The first block takes as many lines as it reports. */
  lemma FirstBlockHeight(lines: seq<string>)
    requires lines != []
    ensures Height(FirstBlock(lines).0) == FirstBlock(lines).1
  {
  }

  /** Every line is used exactly once: the blocks together were made from as many lines as there
      are. */
  lemma {:induction false} BlocksCoverLines(lines: seq<string>)
    ensures TotalHeight(Blocks(lines)) == |lines|
    decreases |lines|
  {
    if lines != [] {
      var (block, n) := FirstBlock(lines);
      FirstBlockHeight(lines);
      BlocksCoverLines(lines[n..]);
      assert Blocks(lines)[1..] == Blocks(lines[n..]);
    }
  }

  /** A list block is opened only by a line that passes its list test. */
  lemma FirstBlockList(lines: seq<string>)
    requires lines != [] && FirstBlock(lines).0.List?
    ensures IsItem(FirstBlock(lines).0.kind, lines[0])
  {
  }

  /** Lists are maximal: a list is never directly followed by another list of the same kind,
      since the line after a list's run fails that list's test. */
  lemma {:induction false} ListsMaximal(lines: seq<string>)
    ensures forall k :: 0 <= k < |Blocks(lines)| - 1 && Blocks(lines)[k].List? && Blocks(lines)[k + 1].List? ==>
      Blocks(lines)[k].kind != Blocks(lines)[k + 1].kind
    decreases |lines|
  {
    if lines != [] {
      var blocks := Blocks(lines);
      var (block, n) := FirstBlock(lines);
      var rest := lines[n..];
      ListsMaximal(rest);
      assert blocks[1..] == Blocks(rest);
      if 1 < |blocks| && block.List? && blocks[1].List? {
        FirstBlockList(rest);
        assert rest[0] == lines[n];
      }
      forall k | 1 <= k < |blocks| - 1 ensures blocks[k] == Blocks(rest)[k - 1] && blocks[k + 1] == Blocks(rest)[k] {
      }
    }
  }

  /** A fourth `#` stays in the text of a level-3 heading. */
  lemma DeepHeadingExample()
    ensures Kind("#### a") == HeadingLine(3) && HeadingText("#### a", 3) == "# a"
  {
    assert "#### a"[..3] == "###";
    assert "#### a"[3..] == "# a";
  }

  /** A numbered item may have several digits; its text starts after the whitespace. */
  lemma NumberedItemExample()
    ensures IsNumberedItem("12. a") && ItemText(Numbered, "12. a") == "a"
  {
    assert "12. a"[1..] == "2. a";
    assert "2. a"[1..] == ". a";
    assert DigitRun("12. a") == 2;
    assert "12. a"[3..] == " a";
    assert " a"[1..] == "a";
  }

  /** Without whitespace after the dot a line is a paragraph. */
  lemma NumberWithoutSpaceExample()
    ensures Kind("1.a") == TextLine
  {
    assert "1.a"[1..] == ".a";
    assert DigitRun("1.a") == 1;
  }

  /** A bullet needs a space after its marker. */
  lemma BulletExample()
    ensures Kind("-a") == TextLine
    ensures Kind("* a") == ItemLine(Bulleted) && ItemText(Bulleted, "* a") == "a"
  {
    assert "-a"[..1] == "-" && "-a"[..2] == "-a" && DigitRun("-a") == 0;
    assert "* a"[..2] == "* ";
    assert "* a"[1..] == " a";
    assert " a"[1..] == "a";
  }

  /** `formatMarkdown(content)`: the content split at line breaks, and one block after another
      until the lines run out. */
  method FormatMarkdown(content: string) returns (elements: seq<Block>)
    ensures elements == Blocks(TrimAll(SplitOn(content, '\n')))
  {
    var lines := SplitOn(content, '\n');
    ghost var trimmed := TrimAll(lines);
    elements := [];
    var i := 0;
    assert trimmed[0..] == trimmed;
    assert [] + Blocks(trimmed) == Blocks(trimmed);
    while i < |lines|
      invariant 0 <= i <= |lines|
      invariant elements + Blocks(trimmed[i..]) == Blocks(trimmed)
      decreases |lines| - i
    {
      var block, next := NextBlock(lines, i);
      BlocksStep(trimmed, i, block, next);
      ghost var rest := Blocks(trimmed[next..]);
      assert elements + ([block] + rest) == elements + [block] + rest;
      elements := elements + [block];
      i := next;
    }
    assert trimmed[i..] == [];
    assert elements + [] == elements;
  }
}

=== FILE: regex_split.dfy ===
/** The two capturing regular expressions that client/src/components/chat-messages.tsx hands to
    `String.prototype.split`, and the split itself.

    Each regex is modelled twice: as the shape of a whole string it matches (`IsToken`, stated
    declaratively), and as a sticky matcher that returns the length of the match starting at the
    front of a string (`MatchAt`, written the way the regex engine finds it). `MatchAtIsToken`
    ties the two together. `Split` is the capturing split: text between matches and the matches
    themselves alternate, in order, starting and ending with (possibly empty) text. */
module RegexSplit {
  import opened JsText

  datatype Pattern =
    | Fence   // three backticks, then lazily any characters, then three backticks
    | Inline  // `[^`]+`  or  **[^*]+**  or  *[^*]+*  (tried in that order)

  const Ticks: string := "```"

  predicate TicksAt(t: string, k: nat) { k + 3 <= |t| && t[k..k + 3] == Ticks }

  /** A whole string the lazy fence regex matches: opening ticks, closing ticks, and no earlier
      closing ticks (the lazy quantifier stops at the first one). */
  predicate IsFenceToken(w: string) {
    && |w| >= 6 && TicksAt(w, 0) && TicksAt(w, |w| - 3)
    && forall k :: 3 <= k < |w| - 3 ==> !TicksAt(w, k)
  }

  /** A whole string matched by the inline-code alternative: a backtick, at least one
      non-backtick, a backtick. */
  predicate IsCodeToken(w: string) {
    IsWrappedToken(w, '`')
  }

  /** A whole string matched by the bold alternative: two asterisks, at least one
      non-asterisk, two asterisks. */
  predicate IsBoldToken(w: string) {
    && |w| >= 5 && w[0] == '*' && w[1] == '*' && w[|w| - 2] == '*' && w[|w| - 1] == '*'
    && forall k :: 2 <= k < |w| - 2 ==> w[k] != '*'
  }

  /** A whole string matched by the italic alternative: an asterisk, at least one
      non-asterisk, an asterisk. */
  predicate IsItalicToken(w: string) {
    IsWrappedToken(w, '*')
  }

  /** A whole string matched by `d[^d]+d`: the delimiter, at least one other character, the
      delimiter. The inline-code and italic alternatives both have this shape. */
  predicate IsWrappedToken(w: string, d: char) {
    && |w| >= 3 && w[0] == d && w[|w| - 1] == d
    && forall k :: 1 <= k < |w| - 1 ==> w[k] != d
  }

  predicate IsToken(p: Pattern, w: string) {
    match p
    case Fence => IsFenceToken(w)
    case Inline => IsCodeToken(w) || IsBoldToken(w) || IsItalicToken(w)
  }

  /** The first position at or after `from` where three backticks start. */
  function TicksFrom(t: string, from: nat): (r: Option<nat>)
    ensures r.Some? ==> from <= r.value && TicksAt(t, r.value)
    ensures r.Some? ==> forall k :: from <= k < r.value ==> !TicksAt(t, k)
    ensures r.None? ==> forall k :: from <= k ==> !TicksAt(t, k)
    decreases |t| - from
  {
    if from + 3 > |t| then None
    else if TicksAt(t, from) then Some(from)
    else TicksFrom(t, from + 1)
  }

  /** Sticky match of the fence regex at the front of `t`: the shortest closing wins. */
  function FenceMatch(t: string): (r: Option<nat>)
    ensures r.Some? ==> 6 <= r.value <= |t|
  {
    if !TicksAt(t, 0) then None
    else
      match TicksFrom(t, 3)
      case None => None
      case Some(q) => Some(q + 3)
  }

  /** Sticky match of `d[^d]+d` (the inline-code alternative with a backtick, the italic one
      with an asterisk): `[^d]+` is greedy, so the match closes at the next `d`, and fails when
      that `d` comes right after the opening one. */
  function WrappedMatch(t: string, d: char): (r: Option<nat>)
    ensures r.Some? ==> 3 <= r.value <= |t|
  {
    if |t| == 0 || t[0] != d then None
    else
      match IndexFrom(t, d, 1)
      case None => None
      case Some(e) => if e > 1 then Some(e + 1) else None
  }

  /** Sticky match of the bold alternative. */
  function BoldMatch(t: string): (r: Option<nat>)
    ensures r.Some? ==> 5 <= r.value <= |t|
  {
    if |t| < 2 || t[0] != '*' || t[1] != '*' then None
    else
      match IndexFrom(t, '*', 2)
      case None => None
      case Some(e) => if e > 2 && e + 1 < |t| && t[e + 1] == '*' then Some(e + 2) else None
  }

  /** Length of the match of pattern `p` that starts at the front of `t`, if any. */
  function MatchAt(p: Pattern, t: string): (r: Option<nat>)
    ensures r.Some? ==> 3 <= r.value <= |t|
  {
    match p
    case Fence => FenceMatch(t)
    case Inline =>
      if WrappedMatch(t, '`').Some? then WrappedMatch(t, '`')
      else if BoldMatch(t).Some? then BoldMatch(t)
      else WrappedMatch(t, '*')
  }

  lemma TicksAtPrefix(t: string, n: nat, k: nat)
    requires n <= |t|
    ensures k + 3 <= n ==> (TicksAt(t[..n], k) <==> TicksAt(t, k))
    ensures TicksAt(t[..n], k) ==> TicksAt(t, k)
  {
    if k + 3 <= n {
      assert t[..n][k..k + 3] == t[k..k + 3];
    }
  }

  lemma FenceMatchIsToken(t: string)
    ensures FenceMatch(t).Some? ==> IsFenceToken(t[..FenceMatch(t).value])
    ensures forall n :: 0 <= n <= |t| && IsFenceToken(t[..n]) ==> FenceMatch(t) == Some(n)
  {
    if FenceMatch(t).Some? {
      var n := FenceMatch(t).value;
      var w := t[..n];
      TicksAtPrefix(t, n, 0);
      TicksAtPrefix(t, n, n - 3);
      forall k | 3 <= k < n - 3 ensures !TicksAt(w, k) {
        TicksAtPrefix(t, n, k);
      }
    }
    forall n | 0 <= n <= |t| && IsFenceToken(t[..n]) ensures FenceMatch(t) == Some(n) {
      TicksAtPrefix(t, n, 0);
      TicksAtPrefix(t, n, n - 3);
      forall k | 3 <= k < n - 3 ensures !TicksAt(t, k) {
        TicksAtPrefix(t, n, k);
      }
      assert TicksFrom(t, 3) == Some(n - 3);
    }
  }

  lemma WrappedMatchIsToken(t: string, d: char)
    ensures WrappedMatch(t, d).Some? ==> IsWrappedToken(t[..WrappedMatch(t, d).value], d)
    ensures forall n :: 0 <= n <= |t| && IsWrappedToken(t[..n], d) ==> WrappedMatch(t, d) == Some(n)
  {
    forall n | 0 <= n <= |t| && IsWrappedToken(t[..n], d) ensures WrappedMatch(t, d) == Some(n) {
      var w := t[..n];
      assert t[n - 1] == w[n - 1];
      forall m | 1 <= m < n - 1 ensures t[m] != d { assert t[m] == w[m]; }
      assert IndexFrom(t, d, 1) == Some(n - 1);
    }
  }

  lemma BoldMatchIsToken(t: string)
    ensures BoldMatch(t).Some? ==> IsBoldToken(t[..BoldMatch(t).value])
    ensures forall n :: 0 <= n <= |t| && IsBoldToken(t[..n]) ==> BoldMatch(t) == Some(n)
  {
    forall n | 0 <= n <= |t| && IsBoldToken(t[..n]) ensures BoldMatch(t) == Some(n) {
      var w := t[..n];
      assert t[n - 2] == w[n - 2] && t[n - 1] == w[n - 1];
      forall m | 2 <= m < n - 2 ensures t[m] != '*' { assert t[m] == w[m]; }
      assert IndexFrom(t, '*', 2) == Some(n - 2);
    }
  }

  /** The sticky matcher finds exactly the token that the regex describes: when it reports a
      length, the prefix of that length is a token, and every token prefix is the one it reports
      (so a token prefix, when there is one, is unique). */
  lemma MatchAtIsToken(p: Pattern, t: string)
    ensures MatchAt(p, t).Some? ==> IsToken(p, t[..MatchAt(p, t).value])
    ensures forall n :: 0 <= n <= |t| && IsToken(p, t[..n]) ==> MatchAt(p, t) == Some(n)
  {
    match p
    case Fence =>
      FenceMatchIsToken(t);
    case Inline =>
      WrappedMatchIsToken(t, '`');
      BoldMatchIsToken(t);
      WrappedMatchIsToken(t, '*');
      forall n | 0 <= n <= |t| && IsToken(p, t[..n]) ensures MatchAt(p, t) == Some(n) {
        var w := t[..n];
        if IsCodeToken(w) {
        } else if IsBoldToken(w) {
          assert t[0] == w[0];
        } else {
          assert t[0] == w[0] && t[1] == w[1];
        }
      }
  }

  /** A sticky matcher: the length of the match at the front of a string, if any. */
  type Matcher = string -> Option<nat>

  /** Every match is non-empty and fits in the string. */
  ghost predicate Sound(m: Matcher) {
    forall t :: m(t).Some? ==> 1 <= m(t).value <= |t|
  }

  /** The regex of pattern `p`, as a sticky matcher. */
  function MatcherOf(p: Pattern): (m: Matcher)
    ensures Sound(m)
  {
    t => MatchAt(p, t)
  }

  /** Outcome of a search for the leftmost match. */
  datatype Search = NotFound | Found(start: nat, len: nat)

  /** The leftmost match at or after `from`. */
  function FindMatch(m: Matcher, s: string, from: nat): (r: Search)
    requires Sound(m) && from <= |s|
    ensures r.Found? ==> from <= r.start && 1 <= r.len && r.start + r.len <= |s|
    ensures r.Found? ==> m(s[r.start..]) == Some(r.len)
    decreases |s| - from
  {
    if from == |s| then NotFound
    else
      match m(s[from..])
      case Some(n) => Found(from, n)
      case None => FindMatch(m, s, from + 1)
  }

  /** The match found is the leftmost: nothing matches at an earlier position, and when nothing
      is found, nothing matches anywhere from `from` on. */
  lemma {:induction false} FindMatchLeftmost(m: Matcher, s: string, from: nat)
    requires Sound(m) && from <= |s|
    ensures FindMatch(m, s, from).Found? ==>
      forall q :: from <= q < FindMatch(m, s, from).start ==> m(s[q..]).None?
    ensures FindMatch(m, s, from).NotFound? ==> forall q :: from <= q < |s| ==> m(s[q..]).None?
    decreases |s| - from
  {
    if from < |s| && m(s[from..]).None? {
      FindMatchLeftmost(m, s, from + 1);
    }
  }

  /** `s.split(regex)` with a capturing group, as the ES `@@split` algorithm runs it: text,
      match, text, ..., match, text. */
  function Split(m: Matcher, s: string): (parts: seq<string>)
    requires Sound(m)
    ensures |parts| % 2 == 1
    decreases |s|
  {
    match FindMatch(m, s, 0)
    case NotFound => [s]
    case Found(q, n) => [s[..q], s[q..q + n]] + Split(m, s[q + n..])
  }

  /** One step of the split: the text before the leftmost match, the match, and the split of
      the rest. */
  lemma SplitStep(m: Matcher, s: string)
    requires Sound(m) && FindMatch(m, s, 0).Found?
    ensures var r := FindMatch(m, s, 0);
      Split(m, s) == [s[..r.start], s[r.start..r.start + r.len]] + Split(m, s[r.start + r.len..])
  {
  }

  /** The split loses nothing and keeps the order: concatenating the parts gives `s` back. */
  lemma {:induction false} SplitConcat(m: Matcher, s: string)
    requires Sound(m)
    ensures Concat(Split(m, s)) == s
    decreases |s|
  {
    var r := FindMatch(m, s, 0);
    if r.Found? {
      var q, n := r.start, r.len;
      var head, token, tail := s[..q], s[q..q + n], s[q + n..];
      var rest := Split(m, tail);
      SplitStep(m, s);
      SplitConcat(m, tail);
      ConcatAppend([head, token], rest);
      assert Concat([head, token]) == head + token;
      assert s == head + token + tail;
    }
  }

  /** The text after the first match. */
  function AfterMatch(m: Matcher, s: string): (t: string)
    requires Sound(m) && FindMatch(m, s, 0).Found?
    ensures |t| < |s|
  {
    var r := FindMatch(m, s, 0);
    s[r.start + r.len..]
  }

  /** The text left after the first `j` matches (empty when there are fewer). */
  function Rest(m: Matcher, s: string, j: nat): (t: string)
    requires Sound(m)
    ensures |t| <= |s|
    decreases j
  {
    if j == 0 then s
    else
      match FindMatch(m, s, 0)
      case NotFound => []
      case Found(q, n) => Rest(m, s[q + n..], j - 1)
  }

  /** Past the first text part and the first match, the split of `s` is the split of the text
      after the match. */
  lemma SplitShift(m: Matcher, s: string, j: nat)
    requires Sound(m) && 1 <= j && 2 * j < |Split(m, s)|
    ensures FindMatch(m, s, 0).Found?
    ensures 2 * (j - 1) < |Split(m, AfterMatch(m, s))|
    ensures Split(m, s)[2 * j..] == Split(m, AfterMatch(m, s))[2 * (j - 1)..]
    ensures Rest(m, s, j) == Rest(m, AfterMatch(m, s), j - 1)
  {
    var r := FindMatch(m, s, 0);
    assert r.Found?;
    SplitStep(m, s);
    var rest := Split(m, AfterMatch(m, s));
    assert Split(m, s) == [s[..r.start], s[r.start..r.start + r.len]] + rest;
    assert 2 * j - 2 == 2 * (j - 1);
  }

  /** From part `2 * j` on, the split of `s` is the split of the text left after `j` matches:
      the split restarts after every match. */
  lemma SplitRest(m: Matcher, s: string, j: nat)
    requires Sound(m) && 2 * j < |Split(m, s)|
    ensures Split(m, s)[2 * j..] == Split(m, Rest(m, s, j))
  {
    var i, cur := 0, s;
    assert Split(m, s)[0..] == Split(m, s);
    while i < j
      invariant i <= j
      invariant 2 * (j - i) < |Split(m, cur)|
      invariant Split(m, s)[2 * j..] == Split(m, cur)[2 * (j - i)..]
      invariant Rest(m, s, j) == Rest(m, cur, j - i)
      decreases j - i
    {
      SplitShift(m, cur, j - i);
      cur, i := AfterMatch(m, cur), i + 1;
    }
    assert Split(m, cur)[0..] == Split(m, cur);
  }

  /** No match starts inside the first text part. */
  lemma SplitFirstGap(m: Matcher, t: string, i: nat)
    requires Sound(m) && i < |Split(m, t)[0]|
    ensures i < |t| && m(t[i..]).None?
  {
    var r := FindMatch(m, t, 0);
    FindMatchLeftmost(m, t, 0);
    if r.Found? {
      SplitStep(m, t);
      assert Split(m, t)[0] == t[..r.start];
    }
  }

  /** The second part is the match that starts right after the first text part. */
  lemma SplitFirstMatch(m: Matcher, t: string)
    requires Sound(m) && 1 < |Split(m, t)|
    ensures |Split(m, t)[0]| + |Split(m, t)[1]| <= |t|
    ensures m(t[|Split(m, t)[0]|..]) == Some(|Split(m, t)[1]|)
    ensures Split(m, t)[1] == t[|Split(m, t)[0]|..|Split(m, t)[0]| + |Split(m, t)[1]|]
  {
    var r := FindMatch(m, t, 0);
    assert r.Found?;
    SplitStep(m, t);
    assert Split(m, t)[0] == t[..r.start];
    assert Split(m, t)[1] == t[r.start..r.start + r.len];
  }

  /** The split of `s` by the regex of pattern `p`. */
  function SplitBy(p: Pattern, s: string): seq<string> {
    Split(MatcherOf(p), s)
  }

  /** Splitting by a pattern loses nothing: the parts concatenate back to `s`. */
  lemma SplitByConcat(p: Pattern, s: string)
    ensures Concat(SplitBy(p, s)) == s
  {
    SplitConcat(MatcherOf(p), s);
  }

  /** The first captured part of a split is one whole token of the pattern. */
  lemma FirstMatchIsToken(p: Pattern, t: string)
    requires 1 < |SplitBy(p, t)|
    ensures IsToken(p, SplitBy(p, t)[1])
  {
    var m := MatcherOf(p);
    var tparts := Split(m, t);
    SplitFirstMatch(m, t);
    var q, n := |tparts[0]|, |tparts[1]|;
    MatchAtIsToken(p, t[q..]);
    assert t[q..][..n] == tparts[1];
  }

  /** Every captured (odd-indexed) part is one whole token of the pattern. */
  lemma SplitByTokens(p: Pattern, s: string)
    ensures forall k :: 0 <= k < |SplitBy(p, s)| && k % 2 == 1 ==> IsToken(p, SplitBy(p, s)[k])
  {
    var m := MatcherOf(p);
    var parts := SplitBy(p, s);
    forall k | 0 <= k < |parts| && k % 2 == 1 ensures IsToken(p, parts[k]) {
      SplitRest(m, s, k / 2);
      var t := Rest(m, s, k / 2);
      assert parts[k] == SplitBy(p, t)[1];
      FirstMatchIsToken(p, t);
    }
  }

  /** No token of the pattern starts inside the first text part of a split, even running on
      past it. */
  lemma FirstGapTokenFree(p: Pattern, t: string, i: nat, j: nat)
    requires i < j <= |SplitBy(p, t)[0]|
    ensures !IsToken(p, SplitBy(p, t)[0][i..j])
  {
    var m := MatcherOf(p);
    var tparts := Split(m, t);
    SplitFirstGap(m, t, i);
    SplitConcat(m, t);
    assert t == tparts[0] + Concat(tparts[1..]);
    var u := t[i..];
    MatchAtIsToken(p, u);
    assert u[..j - i] == tparts[0][i..j];
  }

  /** No text (even-indexed) part contains a token of the pattern anywhere inside it. */
  lemma SplitByGapsTokenFree(p: Pattern, s: string)
    ensures forall k, i, j :: 0 <= k < |SplitBy(p, s)| && k % 2 == 0 && 0 <= i <= j <= |SplitBy(p, s)[k]| ==>
      !IsToken(p, SplitBy(p, s)[k][i..j])
  {
    var m := MatcherOf(p);
    var parts := SplitBy(p, s);
    forall k, i, j | 0 <= k < |parts| && k % 2 == 0 && 0 <= i <= j <= |parts[k]|
      ensures !IsToken(p, parts[k][i..j])
    {
      if i < j {
        SplitRest(m, s, k / 2);
        var t := Rest(m, s, k / 2);
        assert parts[k] == SplitBy(p, t)[0];
        FirstGapTokenFree(p, t, i, j);
      }
    }
  }

  /** Where the first text part of a split sits: `t` starts with it, no match starts at the
      front of `t` when it is not empty, and it is followed either by the first match or by
      nothing. */
  lemma FirstGapLayout(m: Matcher, t: string)
    requires Sound(m)
    ensures |Split(m, t)[0]| <= |t| && t[..|Split(m, t)[0]|] == Split(m, t)[0]
    ensures 0 < |Split(m, t)[0]| ==> m(t).None?
    ensures 1 < |Split(m, t)| ==>
      var gap, token := Split(m, t)[0], Split(m, t)[1];
      |gap| + |token| <= |t| && t[|gap|..|gap| + |token|] == token
    ensures |Split(m, t)| == 1 ==> t == Split(m, t)[0]
  {
    var tparts := Split(m, t);
    SplitConcat(m, t);
    assert t == tparts[0] + Concat(tparts[1..]);
    if 1 < |tparts| {
      SplitFirstMatch(m, t);
    } else {
      assert Concat(tparts[1..]) == [];
    }
    if 0 < |tparts[0]| {
      SplitFirstGap(m, t, 0);
      assert t[0..] == t;
    }
  }

  /** Where a text (even-indexed) part sits: `t`, the text from that part on, starts with the
      part; no match starts at its front; and the part is followed either by the next match
      or by nothing. */
  lemma SplitGapLayout(m: Matcher, s: string, k: nat)
    requires Sound(m) && k < |Split(m, s)| && k % 2 == 0
    ensures var parts, t := Split(m, s), Rest(m, s, k / 2);
      && |parts[k]| <= |t| && t[..|parts[k]|] == parts[k]
      && (0 < |parts[k]| ==> m(t).None?)
      && (k + 1 < |parts| ==>
            (&& |parts[k]| + |parts[k + 1]| <= |t|
             && t[|parts[k]|..|parts[k]| + |parts[k + 1]|] == parts[k + 1]))
      && (k + 1 == |parts| ==> t == parts[k])
  {
    var parts := Split(m, s);
    var j := k / 2;
    assert 2 * j == k;
    SplitRest(m, s, j);
    var t := Rest(m, s, j);
    var tparts := Split(m, t);
    assert parts[k] == tparts[0] && |tparts| == |parts| - k
      && (k + 1 < |parts| ==> parts[k + 1] == tparts[1]) by {
      assert parts[k..] == tparts;
    }
    FirstGapLayout(m, t);
  }

  /** `SplitGapLayout` for the regex of a pattern: in particular the pattern does not match at
      the start of a non-empty text part, even running on into the parts after it. */
  lemma SplitGapContext(p: Pattern, s: string, k: nat)
    requires k < |SplitBy(p, s)| && k % 2 == 0
    ensures var parts, t := SplitBy(p, s), Rest(MatcherOf(p), s, k / 2);
      && |parts[k]| <= |t| && t[..|parts[k]|] == parts[k]
      && (0 < |parts[k]| ==> MatchAt(p, t).None?)
      && (k + 1 < |parts| ==>
            (&& |parts[k]| + |parts[k + 1]| <= |t|
             && t[|parts[k]|..|parts[k]| + |parts[k + 1]|] == parts[k + 1]))
      && (k + 1 == |parts| ==> t == parts[k])
  {
    var m := MatcherOf(p);
    var parts, t := SplitBy(p, s), Rest(m, s, k / 2);
    assert parts == Split(m, s);
    SplitGapLayout(m, s, k);
    if 0 < |parts[k]| {
      assert m(t) == MatchAt(p, t);
    }
  }

  /** A string in which the pattern matches nowhere is split into itself alone. */
  lemma {:induction false} NoMatchNoSplit(m: Matcher, s: string, from: nat)
    requires Sound(m) && from <= |s|
    requires forall q :: from <= q < |s| ==> m(s[q..]).None?
    ensures FindMatch(m, s, from) == NotFound
    ensures from == 0 ==> Split(m, s) == [s]
    decreases |s| - from
  {
    if from < |s| {
      NoMatchNoSplit(m, s, from + 1);
    }
  }
}

=== FILE: storage.dfy ===
/** The conversation queries of the server (server/storage.ts). `getConversationsByEmail` folds
    the conversation rows, newest first, into one summary per thread, and keeps the first ten
    threads; `getAllConversations` and `getAllConversationsByUser` wrap the rows in a result
    envelope. The database query is not modelled: its outcome is an input. */
module Storage {
  import opened JsText

  /** A row of the `conversations` table, as far as the server reads it. The message is `None`
      when the column is null. */
  datatype Row = Row(id: nat, threadId: Option<string>, message: Option<string>, createdAt: string, studentId: int)

  /** The summary of a thread. */
  datatype Summary = Summary(id: string, title: string, lastMessage: string, createdAt: string, studentId: int)

  /** What the query gave: an error object, a thrown exception, or rows (`data` may be null). */
  datatype QueryOutcome = QueryFailed(error: string) | QueryThrew(error: string) | QueryData(data: Option<seq<Row>>)

  /** The thread a row belongs to: its thread id when that is present and not empty, else
      `single_<id>`. */
  function ThreadKey(r: Row): string {
    if r.threadId.Some? && r.threadId.value != "" then r.threadId.value
    else "single_" + NatToString(r.id)
  }

  /** A row with a non-empty thread id belongs to that thread; every other row is a thread of its
      own, and two such rows share a key exactly when they have the same id. */
  lemma ThreadKeyShape(r: Row, q: Row)
    ensures r.threadId.Some? && r.threadId.value != "" ==> ThreadKey(r) == r.threadId.value
    ensures r.threadId.None? || r.threadId.value == "" ==> ThreadKey(r) == "single_" + NatToString(r.id)
    ensures (r.threadId.None? || r.threadId.value == "") && (q.threadId.None? || q.threadId.value == "") ==>
      (ThreadKey(r) == ThreadKey(q) <==> r.id == q.id)
  {
    if (r.threadId.None? || r.threadId.value == "") && (q.threadId.None? || q.threadId.value == "")
      && ThreadKey(r) == ThreadKey(q)
    {
      var p := "single_";
      assert NatToString(r.id) == ThreadKey(r)[|p|..];
      assert NatToString(q.id) == ThreadKey(q)[|p|..];
      NatToStringRoundTrip(r.id);
      NatToStringRoundTrip(q.id);
    }
  }

  /** A message shortened for a title: kept when it has at most fifty characters, else its first
      fifty followed by `...`. */
  function TitlePreview(message: string): string {
    if |message| > 50 then Substring(message, 0, 50) + "..." else message
  }

  lemma TitlePreviewShape(message: string)
    ensures |TitlePreview(message)| <= 53
    ensures |message| <= 50 ==> TitlePreview(message) == message
    ensures |message| > 50 ==> TitlePreview(message) == message[..50] + "..."
  {
    SubstringPrefix(message, 50);
  }

  function Summarize(r: Row): Summary
    requires r.message.Some?
  {
    Summary(ThreadKey(r), TitlePreview(r.message.value), r.message.value, r.createdAt, r.studentId)
  }

  /** Puts `prefix` in front of a grouping that did not fail. */
  function Glue(prefix: seq<Summary>, g: Option<seq<Summary>>): Option<seq<Summary>> {
    match g
    case None => None
    case Some(s) => Some(prefix + s)
  }

  /** The summaries of the threads of `rows` that are not in `seen`, in the order their first rows
      come, each made from that first row; `None` when such a first row has a null message (reading
      its length throws). */
  function GroupFrom(rows: seq<Row>, seen: set<string>): Option<seq<Summary>>
    decreases |rows|
  {
    if rows == [] then Some([])
    else
      var key := ThreadKey(rows[0]);
      if key in seen then GroupFrom(rows[1..], seen)
      else if rows[0].message.None? then None
      else Glue([Summarize(rows[0])], GroupFrom(rows[1..], seen + {key}))
  }

  function Grouped(rows: seq<Row>): Option<seq<Summary>> {
    GroupFrom(rows, {})
  }

  /** The thread keys of a sequence of rows. */
  function KeysOf(rows: seq<Row>): set<string>
    decreases |rows|
  {
    if rows == [] then {} else {ThreadKey(rows[0])} + KeysOf(rows[1..])
  }

  lemma GlueNil(g: Option<seq<Summary>>)
    ensures Glue([], g) == g
  {
    if g.Some? {
      assert [] + g.value == g.value;
    }
  }

  lemma GlueGlue(a: seq<Summary>, b: seq<Summary>, g: Option<seq<Summary>>)
    ensures Glue(a, Glue(b, g)) == Glue(a + b, g)
  {
    if g.Some? {
      assert a + (b + g.value) == a + b + g.value;
    }
  }

  /** What a grouping becomes when one more row with a new thread comes at the end. */
  function AddThread(g: Option<seq<Summary>>, r: Row): Option<seq<Summary>> {
    match g
    case None => None
    case Some(s) => if r.message.None? then None else Some(s + [Summarize(r)])
  }

  /** The grouping grows one row at a time: a row whose thread was already seen changes nothing,
      and a row of a new thread appends that thread's summary (or fails on a null message). */
  lemma {:induction false} GroupFromSnoc(rows: seq<Row>, r: Row, seen: set<string>)
    ensures ThreadKey(r) in seen + KeysOf(rows) ==> GroupFrom(rows + [r], seen) == GroupFrom(rows, seen)
    ensures ThreadKey(r) !in seen + KeysOf(rows) ==> GroupFrom(rows + [r], seen) == AddThread(GroupFrom(rows, seen), r)
    decreases |rows|
  {
    if rows == [] {
      assert [] + [r] == [r];
      assert [r][1..] == [];
      if ThreadKey(r) !in seen && r.message.Some? {
        assert GroupFrom([r], seen) == Glue([Summarize(r)], Some([]));
        assert [Summarize(r)] + [] == [] + [Summarize(r)];
      }
    } else {
      var a := rows[0];
      var key := ThreadKey(a);
      assert (rows + [r])[0] == a && (rows + [r])[1..] == rows[1..] + [r];
      if key in seen {
        GroupFromSnoc(rows[1..], r, seen);
      } else if a.message.Some? {
        GroupFromSnoc(rows[1..], r, seen + {key});
        var later := GroupFrom(rows[1..], seen + {key});
        if later.Some? && ThreadKey(r) !in seen + KeysOf(rows) && r.message.Some? {
          GlueGlue([Summarize(a)], later.value, Some([Summarize(r)]));
        }
      }
    }
  }

  /** A thread's summary is made only once: no two summaries have the same id, and none has the id
      of a thread already seen. */
  lemma {:induction false} GroupFromDistinct(rows: seq<Row>, seen: set<string>)
    requires GroupFrom(rows, seen).Some?
    ensures var s := GroupFrom(rows, seen).value;
      && (forall j :: 0 <= j < |s| ==> s[j].id !in seen)
      && (forall i, j :: 0 <= i < j < |s| ==> s[i].id != s[j].id)
    decreases |rows|
  {
    if rows != [] {
      var key := ThreadKey(rows[0]);
      if key in seen {
        GroupFromDistinct(rows[1..], seen);
      } else {
        GroupFromDistinct(rows[1..], seen + {key});
      }
    }
  }

  /** Every thread of the rows gets a summary, and nothing else does. */
  lemma {:induction false} GroupFromCoversThreads(rows: seq<Row>, seen: set<string>)
    requires GroupFrom(rows, seen).Some?
    ensures var s := GroupFrom(rows, seen).value;
      forall key :: key in KeysOf(rows) - seen <==> exists j :: 0 <= j < |s| && s[j].id == key
    decreases |rows|
  {
    if rows != [] {
      var a := rows[0];
      var key := ThreadKey(a);
      var tail := rows[1..];
      var s := GroupFrom(rows, seen).value;
      if key in seen {
        GroupFromCoversThreads(tail, seen);
        assert KeysOf(rows) - seen == KeysOf(tail) - seen;
      } else {
        GroupFromCoversThreads(tail, seen + {key});
        var rest := GroupFrom(tail, seen + {key}).value;
        assert s == [Summarize(a)] + rest;
        assert KeysOf(rows) - seen == {key} + (KeysOf(tail) - (seen + {key}));
        forall x ensures x in KeysOf(rows) - seen <==> exists j :: 0 <= j < |s| && s[j].id == x {
          if x == key {
            assert s[0].id == x;
          } else {
            if exists j :: 0 <= j < |rest| && rest[j].id == x {
              var j :| 0 <= j < |rest| && rest[j].id == x;
              assert s[j + 1].id == x;
            }
            if exists j :: 0 <= j < |s| && s[j].id == x {
              var j :| 0 <= j < |s| && s[j].id == x;
              assert j > 0 && rest[j - 1].id == x;
            }
          }
        }
      }
    }
  }

  /** Row `p` is the first row of thread `key`. */
  predicate FirstRowOf(rows: seq<Row>, p: int, key: string) {
    0 <= p < |rows| && ThreadKey(rows[p]) == key && forall q :: 0 <= q < p ==> ThreadKey(rows[q]) != key
  }

  /** The first row of a thread wins: every summary is made from the first row of its thread, so
      its last message is that row's message, untruncated, and later rows of the thread are not
      read. */
  lemma {:induction false} GroupFromFirstRows(rows: seq<Row>, seen: set<string>)
    requires GroupFrom(rows, seen).Some?
    ensures var s := GroupFrom(rows, seen).value;
      forall j :: 0 <= j < |s| ==>
        exists p :: FirstRowOf(rows, p, s[j].id) && rows[p].message.Some? && s[j] == Summarize(rows[p])
    decreases |rows|
  {
    if rows != [] {
      var a := rows[0];
      var key := ThreadKey(a);
      var tail := rows[1..];
      var s := GroupFrom(rows, seen).value;
      var seen' := if key in seen then seen else seen + {key};
      var rest := GroupFrom(tail, seen').value;
      GroupFromFirstRows(tail, seen');
      GroupFromDistinct(tail, seen');
      var shift := if key in seen then 0 else 1;
      assert key !in seen ==> s == [Summarize(a)] + rest;
      forall j | 0 <= j < |s|
        ensures exists p :: FirstRowOf(rows, p, s[j].id) && rows[p].message.Some? && s[j] == Summarize(rows[p])
      {
        if j < shift {
          assert FirstRowOf(rows, 0, s[j].id);
        } else {
          assert s[j] == rest[j - shift];
          var p :| FirstRowOf(tail, p, rest[j - shift].id) && tail[p].message.Some? && rest[j - shift] == Summarize(tail[p]);
          assert rest[j - shift].id !in seen';
          assert FirstRowOf(rows, p + 1, s[j].id) by {
            forall q | 0 <= q < p + 1 ensures ThreadKey(rows[q]) != s[j].id {
              if q > 0 {
                assert rows[q] == tail[q - 1];
              }
            }
          }
        }
      }
    }
  }

  /** `Array.from(conversationsMap.values())`: the map's values in the order their keys were
      inserted. */
  function Values(m: map<string, Summary>, keys: seq<string>): (values: seq<Summary>)
    requires forall k :: 0 <= k < |keys| ==> keys[k] in m
    ensures |values| == |keys|
  {
    seq(|keys|, k requires 0 <= k < |keys| => m[keys[k]])
  }

  /** The result of `getConversationsByEmail`: no summaries without a database client, on a
      query error or when reading a row throws; otherwise the first ten threads. */
  function ConversationsByEmail(configured: bool, outcome: QueryOutcome): seq<Summary> {
    if !configured then []
    else match outcome
      case QueryFailed(_) => []
      case QueryThrew(_) => []
      case QueryData(data) =>
        match Grouped(data.GetOr([]))
        case None => []
        case Some(s) => s[..Min(10, |s|)]
  }

  /** At most ten summaries, with distinct ids, and the first ones of the grouping. */
  lemma ConversationsByEmailShape(configured: bool, outcome: QueryOutcome)
    ensures var r := ConversationsByEmail(configured, outcome);
      && |r| <= 10
      && (forall i, j :: 0 <= i < j < |r| ==> r[i].id != r[j].id)
      && (r != [] ==>
            (&& configured && outcome.QueryData?
             && var g := Grouped(outcome.data.GetOr([]));
                g.Some? && r == g.value[..Min(10, |g.value|)]))
  {
    if configured && outcome.QueryData? {
      var rows := outcome.data.GetOr([]);
      if Grouped(rows).Some? {
        GroupFromDistinct(rows, {});
      }
    }
  }

  /** `getConversationsByEmail(email)`. The email is not used: the query always asks for student 5,
      and its outcome is the input `outcome`. The rows are folded into a map keyed by thread, with
      the order in which keys were first inserted kept beside it. */
  method GetConversationsByEmail(email: string, configured: bool, outcome: QueryOutcome) returns (result: seq<Summary>)
    ensures result == ConversationsByEmail(configured, outcome)
  {
    if !configured {
      return [];
    }
    match outcome {
      case QueryFailed(_) => return [];
      case QueryThrew(_) => return [];
      case QueryData(data) =>
        var rows := data.GetOr([]);
        var conversationsMap: map<string, Summary> := map[];
        var insertionOrder: seq<string> := [];
        var i := 0;
        assert rows[0..] == rows;
        assert conversationsMap.Keys == {};
        assert Values(conversationsMap, insertionOrder) == [];
        GlueNil(Grouped(rows));
        while i < |rows|
          invariant i <= |rows|
          invariant forall k :: 0 <= k < |insertionOrder| ==> insertionOrder[k] in conversationsMap
          invariant Grouped(rows) ==
            Glue(Values(conversationsMap, insertionOrder), GroupFrom(rows[i..], conversationsMap.Keys))
          decreases |rows| - i
        {
          var conversation := rows[i];
          var threadId := ThreadKey(conversation);
          assert rows[i..][0] == conversation && rows[i..][1..] == rows[i + 1..];
          if threadId !in conversationsMap {
            if conversation.message.None? {
              return [];
            }
            ghost var before := Values(conversationsMap, insertionOrder);
            ghost var keysBefore := conversationsMap.Keys;
            ghost var later := GroupFrom(rows[i + 1..], keysBefore + {threadId});
            conversationsMap := conversationsMap[threadId := Summarize(conversation)];
            insertionOrder := insertionOrder + [threadId];
            assert Values(conversationsMap, insertionOrder) == before + [Summarize(conversation)];
            assert conversationsMap.Keys == keysBefore + {threadId};
            GlueGlue(before, [Summarize(conversation)], later);
          }
          i := i + 1;
        }
        var values := Values(conversationsMap, insertionOrder);
        assert rows[|rows|..] == [];
        assert values + [] == values;
        result := Slice(values, 0, 10);
    }
  }

  /** The body of the result of `getAllConversations` and `getAllConversationsByUser`. */
  datatype Envelope = Envelope(success: bool, message: string, error: Option<string>, data: seq<Row>)

  const CountSuffix: string := " conversas encontradas"

  /** The envelope built from the query outcome: a failure for a missing client, a query error or
      a thrown exception, each with its own message and no rows; otherwise success, the row count
      in the message and the rows (none when `data` is null). */
  function ConversationsEnvelope(configured: bool, outcome: QueryOutcome): Envelope {
    if !configured then Envelope(false, "Supabase não configurado", None, [])
    else match outcome
      case QueryFailed(e) => Envelope(false, "Erro ao buscar conversas", Some(e), [])
      case QueryThrew(e) => Envelope(false, "Erro na consulta", Some(e), [])
      case QueryData(data) =>
        var rows := data.GetOr([]);
        Envelope(true, NatToString(|rows|) + CountSuffix, None, rows)
  }

  /** Every failure path reports `success: false` with no rows, and the error text when there is one. */
  lemma EnvelopeFailures(configured: bool, outcome: QueryOutcome)
    ensures var e := ConversationsEnvelope(configured, outcome);
      && (e.success <==> configured && outcome.QueryData?)
      && (!e.success ==> e.data == [])
      && (configured && !outcome.QueryData? ==> e.error == Some(outcome.error))
  {
  }

  /** On success the message starts with the decimal count of the rows it carries. */
  lemma EnvelopeCount(configured: bool, outcome: QueryOutcome)
    requires ConversationsEnvelope(configured, outcome).success
    ensures var e := ConversationsEnvelope(configured, outcome);
      var n := |e.message| - |CountSuffix|;
      && 0 < n
      && e.message[n..] == CountSuffix
      && (forall k :: 0 <= k < n ==> IsDigit(e.message[k]))
      && DecimalValue(e.message[..n]) == |e.data|
      && e.data == outcome.data.GetOr([])
  {
    var e := ConversationsEnvelope(configured, outcome);
    var digits := NatToString(|e.data|);
    NatToStringRoundTrip(|e.data|);
    assert e.message[..|digits|] == digits;
    assert e.message[|digits|..] == CountSuffix;
  }
}
